=== FILE: README.md ===
# Setwise quiz generator extension: a Dafny model of its workflow logic

The Setwise extension for VS Code drives the external `setwise` command-line
tool from the editor. It has five workflows:

- preview a quiz;
- generate quiz sets;
- validate a questions file;
- fix LaTeX errors;
- show statistics.

Each workflow starts from a command or an automatic trigger. The file must
pass the questions-file test: the active editor's file for a command or an
editor change, the saved document's file for a save. The workflow then asks the
user whatever it needs, builds one shell command line, runs it, and turns
the process result into banners, opened documents or a revert of the editor.

This project models that decision logic (src/extension.ts) as Dafny functions
over plain values. Editor state, settings, the user's answers and the process
result are inputs. The editor's reactions are an `Action` datatype. The
modules, in dependency order:

- `JsText`, `JsNumber` and `Paths` model the JavaScript and Node built-ins
  the extension calls:
  - `includes`, `endsWith`, `trim` and `split(' ')[0]`;
  - `parseInt`, including its leniencies: leading whitespace, a sign,
    trailing text and the `0x` prefix;
  - the integer text a template literal `${n}` writes;
  - `path.dirname` and `path.join` on `/`-separated paths.
- `ShellWords` models how the shell splits a command line into the argument
  vector the tool receives. It covers two kinds of word, separated by
  spaces:
  - bare words made only of characters the shell gives no meaning to
    (letters, digits and `-_.,:/+=@%`);
  - double-quoted text free of `"`, `$`, backquote and backslash, the
    characters that stay special inside double quotes.
  - A command line is built from a list of arguments (`Arg`). Each argument
    is spliced in verbatim or between double quotes, and the arguments are
    joined by single spaces.
  - `CommandLineWords` shows that the shell hands the tool exactly those
    arguments when none of them breaks the quoting.
- `Eligibility` is the questions-file test `isSetwiseQuestionsFile`.
- `SetCount` holds the custom set count's `validateInput` callback, which
  reads the text with `parseInt`. It also holds the input box that keeps
  asking until a submitted text passes the callback.
- `Regrouping` holds re-association steps for string concatenation. They
  model nothing in the extension; the command-line proofs use them.
- `Commands` holds the five command lines, as argument lists. The `...Text`
  lemmas prove each one equal to the template literal the extension writes.
  `BuildGenerateCommand` builds the generate command step by step, as
  `generateQuizCommand` does. It is proved equal to the `GenerateCommand`
  specification.
- `Presentation` maps a workflow's process result to the actions shown.
- `Workflows` holds:
  - the settings and their defaults;
  - each workflow's plan (command line, working directory, result handler);
  - the command guard;
  - the save and active-editor triggers.

Eligibility follows the code: `includes('questions')` is applied to the whole
path. So any Python file under a directory whose name contains `questions`
is eligible: the test is not restricted to the base name.

## Model

| member | source | states |
|---|---|---|
| Eligibility.IsQuestionsFile | src/extension.ts:112-114 | the questions-file test; `QuestionsFileShape` states what it accepts |
| Eligibility.QuestionsFileShape | src/extension.ts:112-114 | a path passes if and only if it is some text, then `questions`, then some text, then a final `.py` |
| Eligibility.EligibleHasMarker | src/extension.ts:112-114 | in an eligible path the marker `questions` lies wholly before the final `.py` |
| Eligibility.EligibilityReadsWholePath | src/extension.ts:112-114 | a `.py` file in a directory containing `questions` is eligible whatever its own name |
| Eligibility.EligibleInAnyDirectory | src/extension.ts:112-114 | an eligible name stays eligible in any directory |
| Eligibility.EligibleWithMarker | src/extension.ts:113 | any name with `questions` somewhere before a final `.py` is eligible |
| Eligibility.MidtermQuestionsEligible | src/extension.ts:113 | `midterm_questions.py` is eligible |
| Eligibility.CapitalisedNameIneligible | src/extension.ts:113 | `Questions.py` is not eligible: the test does not fold case |
| Eligibility.UpperCaseExtensionIneligible | src/extension.ts:113 | `questions.PY` is not eligible |
| SetCount.SetCountError | src/extension.ts:164-170 | the callback returns nothing or exactly `Please enter a number between 1 and 10` |
| SetCount.SetCountAcceptsOneToTen | src/extension.ts:164-170 | a numeral is accepted if and only if its value lies in 1..10 |
| SetCount.SetCountBoundaries | src/extension.ts:166 | 0 and 11 are refused; 1 and 10 are accepted |
| SetCount.SetCountOfTeen | src/extension.ts:165-166 | a two-digit numeral starting with 1 is accepted if and only if it is 10 |
| SetCount.SetCountReadsNumeralPrefix | src/extension.ts:165-166 | text starting with a numeral is judged by that numeral alone, whatever follows it |
| SetCount.SetCountAcceptsLeadingDigit | src/extension.ts:165-166 | a text whose first character is a digit 1-9 and whose second is not a digit is accepted |
| SetCount.SetCountSkipsWhitespace | src/extension.ts:165 | leading whitespace never changes the verdict |
| SetCount.SetCountSkipsLeadingSpace | src/extension.ts:165 | ` 7` is accepted |
| SetCount.SetCountIgnoresTrailingText | src/extension.ts:165 | `7 sets` is accepted |
| SetCount.SetCountReadsHexadecimal | src/extension.ts:165 | `0xA` (ten) is accepted |
| SetCount.SetCountRefusesEmpty | src/extension.ts:165-167 | the empty text is refused |
| SetCount.SetCountRefusesWords | src/extension.ts:165-167 | `seven` is refused |
| SetCount.InputBox | src/extension.ts:161-171 | an input box yields the first submitted text its callback accepts, with every earlier text refused, and nothing exactly when every text was refused |
| SetCount.SubmitSetCount | src/extension.ts:161-171 | the set-count box yields the first text the validator accepts; nothing exactly when every text was refused |
| SetCount.SubmittedSetCountNonEmpty | src/extension.ts:161-177 | an accepted set count is never empty, so `!sets` rejects only a dismissed box |
| SetCount.SeedInjectionAccepted | src/extension.ts:164-171 | the text `3 --seed 7` passes the callback and the box yields it |
| JsNumber.ParseInt | src/extension.ts:165 | `parseInt` with no radix; the `ParseInt...` lemmas below and `SetCount.SetCountAcceptsOneToTen` state what it reads |
| JsNumber.NumberToString | src/extension.ts:128 | the text `${sets}` writes; `ParseIntNumberToString` states that `parseInt` reads it back, and `Commands.NumeralIsBare` that it is one bare word |
| JsNumber.ParseIntNumberToString | src/extension.ts:165 | `parseInt` reads back every integer written in decimal |
| JsNumber.ParseIntNumeralPrefix | src/extension.ts:165 | `parseInt` reads the longest leading numeral and ignores the rest |
| JsNumber.ParseIntSkipsWhitespace | src/extension.ts:165 | `parseInt` skips leading whitespace |
| JsNumber.ParseIntNoDigits | src/extension.ts:165 | a text starting with neither whitespace, a sign nor a digit is NaN |
| JsNumber.ParseIntHexDigit | src/extension.ts:165 | `0x` followed by one hexadecimal digit is read as that digit's value |
| JsText.Includes | src/extension.ts:113-215 | `includes`; `IncludesIffOccurs` states that it holds exactly when the text occurs at some position |
| JsText.EndsWith | src/extension.ts:113 | `endsWith`; `Eligibility.QuestionsFileShape` states what `endsWith('.py')` together with `includes` accepts |
| JsText.IncludesIffOccurs | src/extension.ts:113 | `includes` holds if and only if the text occurs at some position |
| JsText.Trim | src/extension.ts:216-218 | `trim` yields the text with whitespace removed from both ends and from nowhere else |
| JsText.SplitFirst | src/extension.ts:180 | `split(' ')[0]` is the longest prefix without a space |
| Paths.Dirname | src/extension.ts:127 | `path.dirname`: never empty (its contract); `DirnameJoinsBack` and `JoinIsChild` relate it to `Join` |
| Paths.Join | src/extension.ts:127-138 | `path.join` of a directory and a name; `JoinIsChild` states that the result's directory and base name are the two parts |
| Paths.JoinIsChild | src/extension.ts:127-138 | joining a name to a directory gives a path whose directory and base name are those two |
| Paths.DirnameJoinsBack | src/extension.ts:127 | splitting a path at its last separator and joining the parts gives the path back, except for a leading `./` or `//` |
| ShellWords.CommandLineWords | src/extension.ts:128-258 | when every argument reads back, the shell hands the tool exactly the arguments' texts, one word each |
| ShellWords.CommandLineQuotes | src/extension.ts:128-258 | a quoted argument appears, quotes included, in the command line |
| Commands.GenerateHeadText | src/extension.ts:158 | the generate head is the text `setwise generate --questions-file "<file>"` |
| Commands.PreviewOutputDir | src/extension.ts:127 | the preview's output directory; `PreviewOutputIsHiddenSibling` states where it lies |
| Commands.PreviewOutputDirQuotable | src/extension.ts:127-128 | the output directory stays free of the characters special inside double quotes when the file path is |
| Commands.PreviewCommand | src/extension.ts:128 | the preview command line; `PreviewCommandText` and `PreviewArgv` state its text and what the tool receives |
| Commands.PreviewOutputIsHiddenSibling | src/extension.ts:127-138 | the output directory is `.setwise-preview` beside the file, and the opened document is `quiz_set_1.pdf` inside it |
| Commands.PreviewCommandText | src/extension.ts:128 | the preview argument list renders as exactly the extension's template literal |
| Commands.PreviewArgv | src/extension.ts:128 | the tool receives `generate`, the file, `--output-dir` and the hidden directory, `--sets` and the count, `--template` and the template, `--seed 42` |
| Commands.PresetLabels | src/extension.ts:149-181 | only the custom entry has the label `Custom...`; a preset's count is its label's text before the first space (1, 3, 5) |
| Commands.GenerateCommand | src/extension.ts:156-182 | a generate command exists if and only if an entry was picked and, for Custom, a non-empty count was accepted and a template picked |
| Commands.BuildGenerateCommand | src/extension.ts:156-182 | the step-by-step construction of `command` equals `GenerateCommand` |
| Commands.GeneratePresetArgv | src/extension.ts:179-181 | a preset passes `--sets` and its count and no template |
| Commands.GenerateCustomArgv | src/extension.ts:177-178 | the custom entry passes `--sets` and the accepted text, then `--template` and the picked template |
| Commands.AcceptedSetCountIsSplicedVerbatim | src/extension.ts:164-178 | the accepted text, not the parsed number, is spliced in: `3 --seed 7` hands the tool an extra `--seed 7` |
| Commands.AcceptedSetCountMayLeaveShellWords | src/extension.ts:164-178 | a digit 1-9 followed by any character outside the bare-word set (`7;rm`, a tab, a quote) passes the validator, yet is not a bare word, so it is spliced into the command line unprotected |
| Commands.ValidateCommand | src/extension.ts:206 | the validate command line; `ValidateCommandText` and `ValidateArgv` state it |
| Commands.FixLatexCommand | src/extension.ts:233-234 | the fix-latex command line; `FixLatexCommandText` and `FixLatexArgv` state it |
| Commands.StatsCommand | src/extension.ts:258 | the stats command line; `StatsCommandText` and `StatsArgv` state it |
| Commands.IsDryRun | src/extension.ts:233 | a dry run is chosen if and only if the pick is `Preview fixes` |
| Commands.ValidateCommandText | src/extension.ts:206 | the validate command is the text `setwise questions validate "<file>"` |
| Commands.FixLatexCommandText | src/extension.ts:234 | the fix-latex command is `setwise questions fix-latex "<file>"`, followed by ` --dry-run` exactly for a dry run |
| Commands.StatsCommandText | src/extension.ts:258 | the stats command is the text `setwise questions stats "<file>"` |
| Commands.ValidateArgv | src/extension.ts:206 | validate passes `setwise questions validate <file>` |
| Commands.FixLatexArgv | src/extension.ts:234 | fix-latex passes `setwise questions fix-latex <file>` and `--dry-run` exactly for a dry run |
| Commands.StatsArgv | src/extension.ts:258 | stats passes `setwise questions stats <file>` |
| Presentation.ValidateBanner | src/extension.ts:215-219 | a successful validate shows information or a warning |
| Presentation.FailureBanner | src/extension.ts:131-263 | a failed process shows an error banner |
| Presentation.SuccessActions | src/extension.ts:137-273 | a successful process shows something and never an error banner |
| Presentation.Present | src/extension.ts:130-273 | a failed process shows exactly one error banner; a successful one never shows one |
| Presentation.FailureReportsMessageOnly | src/extension.ts:131-263 | outside validate, a failure banner ends with the error's message and reads neither the stdout nor the stderr parameter |
| Presentation.ValidateFailurePrefersStderr | src/extension.ts:210 | a validate failure reports stderr when it is non-empty, else the error's message |
| Presentation.OnlyValidateReadsStderr | src/extension.ts:130-273 | results differing only in stderr are presented alike, except for a failed validate |
| Presentation.ValidateSeverity | src/extension.ts:215-219 | a successful validate shows information if and only if `Valid` occurs in stdout, else a warning, each with the trimmed stdout after its marker |
| Presentation.ValidateSubstringExamples | src/extension.ts:215 | `Not Valid: 2 errors` is shown as information and `all questions valid` as a warning |
| Presentation.RevertIffAppliedSuccess | src/extension.ts:238-250 | the editor is reverted if and only if fixes were applied and the run succeeded |
| Presentation.DryRunShowsOutput | src/extension.ts:244-245 | a dry run shows one banner: the preview header followed by the whole stdout |
| Presentation.StatsOpensOutput | src/extension.ts:266-273 | statistics open one plaintext document whose content is stdout exactly |
| Presentation.FirstSetPath | src/extension.ts:138 | the path of the document a successful preview opens; `PreviewOpensFirstSet` states that it is `quiz_set_1.pdf` inside the output directory |
| Presentation.PreviewOpensFirstSet | src/extension.ts:137-139 | a successful preview first opens `FirstSetPath`, the file `quiz_set_1.pdf` inside its output directory |
| Workflows.Plan | src/extension.ts:116-258 | only generate runs in the file's directory; every other process runs in the host's directory |
| Workflows.PreviewTemplate | src/extension.ts:118 | the `defaultTemplate` setting, `default` when unset; `PreviewDefaults` states the unset case |
| Workflows.PreviewSets | src/extension.ts:119 | the `previewSets` setting, 1 when unset; `PreviewDefaults` states the unset case |
| Workflows.GuardPasses | src/extension.ts:37-99 | a command proceeds only with an active editor on a questions file; `CommandJob` and `GuardRejectsBeforeAnyProcess` state it |
| Workflows.GuardMessage | src/extension.ts:37-99 | the guard's error text; `OnlyPreviewGuardNamesPattern` states which command's text names the pattern |
| Workflows.Outcome | src/extension.ts:116-277 | the editor shows no banner or document exactly when no process ran, and shows an error banner exactly when a process ran and failed |
| Workflows.CommandJob | src/extension.ts:37-99 | a command runs a process only for an active editor on a questions file |
| Workflows.InvokeCommand | src/extension.ts:37-99 | an error banner appears if and only if the guard rejects or a process ran and failed; a rejected command shows exactly one action, the guard's message; an accepted one shows no banner or document exactly when no process ran |
| Workflows.GuardRejectsBeforeAnyProcess | src/extension.ts:37-99 | without an editor or on an ineligible file no process runs and the error is shown whatever the process would have returned |
| Workflows.OnlyPreviewGuardNamesPattern | src/extension.ts:37-99 | the guard message mentions `*questions.py` if and only if the command is preview |
| Workflows.OnDidSave | src/extension.ts:19-24 | saving starts validation if and only if `autoValidate` is set and the file is eligible |
| Workflows.OnDidChangeActiveEditor | src/extension.ts:27-32 | an editor change starts a preview if and only if `autoPreview` is set, there is an editor and its file is eligible |
| Workflows.TriggersRunTheCommands | src/extension.ts:19-32 | a trigger runs the same process as the matching command |
| Workflows.EveryJobNamesTheFile | src/extension.ts:128-258 | every command line starts with `setwise ` and contains the file between double quotes |
| Workflows.CancellationRunsNothing | src/extension.ts:156-231 | dismissing the generate pick, the set-count box, the template pick or the fix pick runs no process and shows no banner or document |
| Workflows.CustomGenerateRunsIffAnswered | src/extension.ts:160-178 | a custom generate runs if and only if some submitted text was accepted and a template was picked |
| Workflows.NoPromptWorkflowsIgnoreAnswers | src/extension.ts:116-258 | preview, validate and statistics always run and do not depend on any answer |
| Workflows.PreviewDefaults | src/extension.ts:117-128 | with the settings unset, the tool is asked for `--sets 1 --template default` and seed 42 |
| Workflows.PreviewOpensFirstSetOnly | src/extension.ts:117-139 | whatever the set count, a successful preview opens `quiz_set_1.pdf` in the hidden directory |
| Workflows.FixLatexDryRunAndRevert | src/extension.ts:233-250 | `--dry-run` is passed exactly for `Preview fixes`; the editor is reverted exactly when fixes were applied and succeeded |

## Left out

- The preview webview (`SetwisePreviewProvider`, src/extension.ts:307-381) is static markup and messages to the page. No host-side logic depends on it.
- `insertTemplate` (src/extension.ts:279-305) and the two commands that call it (src/extension.ts:81-88) are out of scope. They insert fixed text at the cursor and make no decision.
- Running the process (`exec`), progress notifications, promises and their rejection are not modelled. The process result is an input value. Each workflow is modelled in one step, from its answers to its actions.
- Several workflows in flight at once are not modelled. They share no state the extension reads.
- Settings of the wrong type, such as a non-integer `previewSets`, are out of scope. Settings are modelled as an optional string and an optional integer.
- The prompts (the quick-picks and the input box) are answers given to the model, not `Action`s it shows. The extension does not stop when the set-count box is dismissed: it still shows the template pick (src/extension.ts:173-175), and only `if (!sets || !template) return` (src/extension.ts:177) ends the run, so the template answer is ignored. The model only states that no process runs and no banner or document appears. Which prompts the user sees, and the validation message shown inside the box for a refused text, are not modelled.
- The input box's initial value `3` and its prompt text are not modelled. The box is modelled by the texts the user submits before it closes.
- Paths.Dirname: like `Paths.Join`, it does not model Node's normalisation (`..`, repeated or trailing separators, Windows separators). Paths are `/`-separated.
- ShellWords.Words: only the words described above are modelled. Control operators (`;`, `|`, `&`, redirections), tabs and newlines, `#`, `~`, glob characters, single quotes and expansions (`$`, backquote, backslash) are not. The argument lemmas therefore require bare words to be plain and quoted text (the file path among it) to be free of `"`, `$`, backquote and backslash. Such text would break the quoting the extension relies on. The custom set count is one place where the validator lets other text through (`Commands.AcceptedSetCountMayLeaveShellWords`); the argument lemmas say nothing about such text.
- JsNumber.NumberToString: `previewSets` is written as a plain decimal numeral. JavaScript's exponent form for magnitudes of 10^21 and above, and the rounding of integers above 2^53 to doubles, are not modelled. So `Commands.PreviewCommandText` gives the extension's exact text only for settings JavaScript also writes as a plain numeral.
- Presentation.ProcessResult: the error message is an input independent of stderr. Node's `exec` builds the message for a non-zero exit as `Command failed: <command>` followed by a newline and stderr. So the failure banners of `Presentation.FailureReportsMessageOnly` and `Presentation.OnlyValidateReadsStderr` do show stderr and the command line in practice; those lemmas only state that the banner text is not read from the stderr parameter.
- JsNumber.ParseInt: exact integers are used, not JavaScript's double-precision numbers. For the 1..10 test this changes no verdict on a digit string. Characters are Unicode scalar values rather than UTF-16 units. This changes nothing for the ASCII text the extension tests.
- Workflows.OnDidSave: like `Workflows.OnDidChangeActiveEditor`, it reads the settings at the moment of the event. They are passed in as a value.
- Presentation.Present: the revert action acts on whichever editor is active when the process ends. That may not be the fixed file; the model does not track editors.

=== FILE: commands.dfy ===
/** The command lines the extension hands to the `setwise` tool
    (src/extension.ts). A command line is modelled as the list of its
    arguments, each spliced in verbatim or between double quotes, joined by
    single spaces (`ShellWords.CommandLine`); the `...Text` lemmas show that
    this is exactly the text of the template literal the extension writes. */
module Commands {
  import opened Options
  import opened JsText
  import opened JsNumber
  import opened Paths
  import opened ShellWords
  import opened SetCount
  import opened Regrouping
  import Presentation

  // ---------------------------------------------------------------------
  // Fixed words and text

  /** A number written by a template literal is a single bare word */
  lemma NumeralIsBare(n: int)
    ensures IsBareWord(NumberToString(n))
  {
    var d := DecimalString(if n < 0 then -n else n);
    assert forall k :: 0 <= k < |d| ==> IsPlainChar(d[k]);
    if n < 0 {
      assert NumberToString(n) == "-" + d;
      assert forall k :: 0 < k < |d| + 1 ==> ("-" + d)[k] == d[k - 1];
    }
  }

  /** A flag and its value in front of further arguments */
  lemma FlagText(flag: string, value: Arg, rest: seq<Arg>)
    requires rest != []
    ensures CommandLine([Verbatim(flag), value] + rest)
         == flag + " " + value.Render() + " " + CommandLine(rest)
  {
    var args := [Verbatim(flag), value] + rest;
    assert args[1..] == [value] + rest;
    assert args[1..][1..] == rest;
  }

  // ---------------------------------------------------------------------
  // The start of every generate command

  /** `setwise generate --questions-file "<file>"` */
  function GenerateHead(filePath: string): seq<Arg> {
    [Verbatim("setwise"), Verbatim("generate"), Verbatim("--questions-file"), Quoted(filePath)]
  }

  /** The head's literal, split into its words. Like the other `...Literal`
      lemmas, this is a proof step and models nothing itself */
  lemma GenerateHeadLiteral()
    ensures "setwise generate --questions-file "
         == "setwise" + (" " + ("generate" + (" " + ("--questions-file" + " "))))
  {
  }

  /** The head is the text `previewQuizCommand` and `generateQuizCommand`
      start from */
  lemma GenerateHeadText(filePath: string)
    ensures CommandLine(GenerateHead(filePath)) == "setwise generate --questions-file " + Quote(filePath)
  {
    var h := GenerateHead(filePath);
    assert h[1..][1..][1..] == [Quoted(filePath)];
    assert CommandLine(h[1..][1..]) == "--questions-file" + " " + Quote(filePath);
    assert CommandLine(h[1..]) == "generate" + " " + CommandLine(h[1..][1..]);
    Regroup3("setwise", "generate", "--questions-file", Quote(filePath));
    GenerateHeadLiteral();
  }

  lemma GenerateHeadReadsBack(filePath: string)
    requires IsQuotable(filePath)
    ensures AllReadBack(GenerateHead(filePath))
    ensures Texts(GenerateHead(filePath)) == ["setwise", "generate", "--questions-file", filePath]
  {
    assert IsBareWord("setwise");
    assert IsBareWord("generate");
    assert IsBareWord("--questions-file");
  }

  // ---------------------------------------------------------------------
  // Preview

  /** The hidden directory, next to the questions file, that preview writes to */
  function PreviewOutputDir(filePath: string): string {
    Join(Dirname(filePath), ".setwise-preview")
  }

  /** The arguments `previewQuizCommand` adds after the head */
  function PreviewFlags(filePath: string, sets: int, template: string): seq<Arg> {
    [Verbatim("--output-dir"), Quoted(PreviewOutputDir(filePath)),
     Verbatim("--sets"), Verbatim(NumberToString(sets)),
     Verbatim("--template"), Verbatim(template),
     Verbatim("--seed"), Verbatim("42")]
  }

  /** `previewQuizCommand`'s command line */
  function PreviewCommand(filePath: string, sets: int, template: string): string {
    CommandLine(GenerateHead(filePath) + PreviewFlags(filePath, sets, template))
  }

  /** The output directory is a hidden sibling of the questions file, and the
      opened document is the first set inside it */
  lemma PreviewOutputIsHiddenSibling(filePath: string)
    ensures Dirname(PreviewOutputDir(filePath)) == Dirname(filePath)
    ensures Basename(PreviewOutputDir(filePath)) == ".setwise-preview"
    ensures Dirname(Presentation.FirstSetPath(PreviewOutputDir(filePath))) == PreviewOutputDir(filePath)
    ensures Basename(Presentation.FirstSetPath(PreviewOutputDir(filePath))) == "quiz_set_1.pdf"
  {
    SegmentsHaveNoSlash();
    JoinIsChild(Dirname(filePath), ".setwise-preview");
    JoinIsChild(PreviewOutputDir(filePath), "quiz_set_1.pdf");
  }

  lemma SegmentsHaveNoSlash()
    ensures '/' !in ".setwise-preview" && '/' !in "quiz_set_1.pdf"
  {
  }

  /** The output directory keeps the file path's quoting safe */
  lemma PreviewOutputDirQuotable(filePath: string)
    requires IsQuotable(filePath)
    ensures IsQuotable(PreviewOutputDir(filePath))
  {
    DirnameWithin(filePath, '"');
    DirnameWithin(filePath, '$');
    DirnameWithin(filePath, '`');
    DirnameWithin(filePath, '\\');
    assert IsQuotable(".setwise-preview");
  }

  lemma PreviewFlagLiterals()
    ensures " --output-dir " == " " + "--output-dir" + " "
    ensures " --sets " == " " + "--sets" + " "
    ensures " --template " == " " + "--template" + " "
    ensures " --seed 42" == " " + ("--seed" + " " + "42")
  {
  }

  /** The last two preview flags, argument by argument */
  lemma PreviewTailUnfold(f: seq<Arg>, template: string)
    requires |f| == 8 && f[4..] == [Verbatim("--template"), Verbatim(template), Verbatim("--seed"), Verbatim("42")]
    ensures CommandLine(f[4..]) == "--template" + " " + template + " " + ("--seed" + " " + "42")
  {
    assert f[6..] == [Verbatim("--seed"), Verbatim("42")] && f[6..][1..] == [Verbatim("42")];
    assert CommandLine(f[6..][1..]) == "42";
    assert CommandLine(f[6..]) == "--seed" + " " + "42";
    assert f[4..] == [Verbatim("--template"), Verbatim(template)] + f[6..];
    FlagText("--template", Verbatim(template), f[6..]);
  }

  /** The preview flags, argument by argument */
  lemma PreviewFlagsUnfold(filePath: string, sets: int, template: string)
    ensures CommandLine(PreviewFlags(filePath, sets, template))
         == "--output-dir" + " " + Quote(PreviewOutputDir(filePath)) + " "
            + ("--sets" + " " + NumberToString(sets) + " "
            + ("--template" + " " + template + " " + ("--seed" + " " + "42")))
  {
    var f := PreviewFlags(filePath, sets, template);
    PreviewMiddleUnfold(f, NumberToString(sets), template);
    assert f == [Verbatim("--output-dir"), Quoted(PreviewOutputDir(filePath))] + f[2..];
    FlagText("--output-dir", Quoted(PreviewOutputDir(filePath)), f[2..]);
  }

  /** The preview flags from `--sets` on, argument by argument */
  lemma PreviewMiddleUnfold(f: seq<Arg>, n: string, template: string)
    requires |f| == 8 && f[2..] == [Verbatim("--sets"), Verbatim(n), Verbatim("--template"), Verbatim(template),
                                    Verbatim("--seed"), Verbatim("42")]
    ensures CommandLine(f[2..]) == "--sets" + " " + n + " "
            + ("--template" + " " + template + " " + ("--seed" + " " + "42"))
  {
    PreviewTailUnfold(f, template);
    assert f[2..] == [Verbatim("--sets"), Verbatim(n)] + f[4..];
    FlagText("--sets", Verbatim(n), f[4..]);
  }

  /** The preview flags are the text the extension writes after the head */
  lemma PreviewFlagsText(filePath: string, sets: int, template: string)
    ensures " " + CommandLine(PreviewFlags(filePath, sets, template))
         == " --output-dir " + Quote(PreviewOutputDir(filePath)) + " --sets " + NumberToString(sets)
            + " --template " + template + " --seed 42"
  {
    var n, q := NumberToString(sets), Quote(PreviewOutputDir(filePath));
    PreviewFlagsUnfold(filePath, sets, template);
    var t4 := "--seed" + " " + "42";
    var t3 := "--template" + " " + template + " " + t4;
    var t2 := "--sets" + " " + n + " " + t3;
    PreviewFlagLiterals();
    FlagStep(" --template ", "--template", template, t4);
    FlagStep(" --sets ", "--sets", n, t3);
    FlagStep(" --output-dir ", "--output-dir", q, t2);
    Reassociate(" --output-dir ", q, " --sets ", n, " --template ", template, " --seed 42");
  }

  /** `previewQuizCommand` builds exactly its template literal */
  lemma PreviewCommandText(filePath: string, sets: int, template: string)
    ensures PreviewCommand(filePath, sets, template)
         == "setwise generate --questions-file " + Quote(filePath)
            + " --output-dir " + Quote(PreviewOutputDir(filePath)) + " --sets " + NumberToString(sets)
            + " --template " + template + " --seed 42"
  {
    var h: seq<Arg> := GenerateHead(filePath);
    var f: seq<Arg> := PreviewFlags(filePath, sets, template);
    CommandLineAppend(h, f);
    GenerateHeadText(filePath);
    PreviewFlagsText(filePath, sets, template);
    Regroup(CommandLine(h), " ", CommandLine(f));
    PrefixSeven(CommandLine(h), " --output-dir ", Quote(PreviewOutputDir(filePath)), " --sets ",
                NumberToString(sets), " --template ", template, " --seed 42");
  }

  lemma PreviewFlagsTexts(filePath: string, sets: int, template: string)
    ensures Texts(PreviewFlags(filePath, sets, template))
         == ["--output-dir", PreviewOutputDir(filePath), "--sets", NumberToString(sets),
             "--template", template, "--seed", "42"]
  {
  }

  lemma PreviewFlagsReadBack(filePath: string, sets: int, template: string)
    requires IsQuotable(filePath) && IsBareWord(template)
    ensures AllReadBack(PreviewFlags(filePath, sets, template))
  {
    PreviewOutputDirQuotable(filePath);
    NumeralIsBare(sets);
    PreviewWordsBare();
  }

  lemma PreviewWordsBare()
    ensures IsBareWord("--output-dir") && IsBareWord("--sets") && IsBareWord("--template")
    ensures IsBareWord("--seed") && IsBareWord("42")
  {
    assert IsBareWord("--output-dir");
    assert IsBareWord("--sets");
    assert IsBareWord("--template");
    assert IsBareWord("--seed");
    assert IsBareWord("42");
  }

  /** The tool receives the file, the hidden output directory, the set count,
      the template and the fixed seed 42 as separate arguments */
  lemma PreviewArgv(filePath: string, sets: int, template: string)
    requires IsQuotable(filePath) && IsBareWord(template)
    ensures Words(PreviewCommand(filePath, sets, template))
         == ["setwise", "generate", "--questions-file", filePath]
            + ["--output-dir", PreviewOutputDir(filePath), "--sets", NumberToString(sets),
               "--template", template, "--seed", "42"]
  {
    var h: seq<Arg> := GenerateHead(filePath);
    var f: seq<Arg> := PreviewFlags(filePath, sets, template);
    GenerateHeadReadsBack(filePath);
    PreviewFlagsReadBack(filePath, sets, template);
    PreviewFlagsTexts(filePath, sets, template);
    AllReadBackAppend(h, f);
    CommandLineWords(h + f);
    TextsAppend(h, f);
  }

  // ---------------------------------------------------------------------
  // Generate

  /** The entries of the "How many quiz sets to generate?" quick-pick */
  datatype GenerateOption = OneSet | ThreeSets | FiveSets | Custom {
    function Label(): string {
      match this
      case OneSet => "1 set"
      case ThreeSets => "3 sets"
      case FiveSets => "5 sets"
      case Custom => "Custom..."
    }

    /** The set count a preset stands for */
    function Sets(): string
      requires this != Custom
    {
      match this
      case OneSet => "1"
      case ThreeSets => "3"
      case FiveSets => "5"
    }
  }

  /** A preset's set count is its label's text before the first space, and
      only the custom entry carries the label `Custom...` */
  lemma PresetLabels(option: GenerateOption)
    ensures option == Custom <==> option.Label() == "Custom..."
    ensures option != Custom ==> SplitFirst(option.Label(), ' ') == option.Sets()
  {
    match option
    case OneSet =>
      assert SplitFirst("1 set", ' ') == "1";
    case ThreeSets =>
      assert SplitFirst("3 sets", ' ') == "3";
    case FiveSets =>
      assert SplitFirst("5 sets", ' ') == "5";
    case Custom =>
  }

  /** The entries of the "Select template" quick-pick */
  datatype Template = Default | Compact | Minimal {
    function Name(): string {
      match this
      case Default => "default"
      case Compact => "compact"
      case Minimal => "minimal"
    }
  }

  /** ` --sets <count>`, what a preset adds */
  function PresetFlags(count: string): seq<Arg> {
    [Verbatim("--sets"), Verbatim(count)]
  }

  /** ` --sets <text> --template <template>`, what the custom entry adds */
  function CustomFlags(sets: string, template: string): seq<Arg> {
    [Verbatim("--sets"), Verbatim(sets), Verbatim("--template"), Verbatim(template)]
  }

  /** The generate command for the user's answers: a preset adds only its set
      count; Custom adds the accepted text and the template, and yields no
      command when either prompt was dismissed */
  function GenerateCommand(filePath: string, pick: Option<GenerateOption>,
                           sets: Option<string>, template: Option<Template>): (r: Option<string>)
    ensures r.Some? <==> pick.Some? && (pick.value == Custom ==> sets.Some? && sets.value != "" && template.Some?)
  {
    match pick
    case None => None
    case Some(Custom) =>
      if sets.None? || sets.value == "" || template.None? then None
      else Some(CommandLine(GenerateHead(filePath) + CustomFlags(sets.value, template.value.Name())))
    case Some(option) => Some(CommandLine(GenerateHead(filePath) + PresetFlags(option.Sets())))
  }

  /** Appending ` --sets <count>` to a command line appends the preset flags */
  lemma PresetFlagsText(line: string, count: string)
    ensures line + " --sets " + count == line + " " + CommandLine(PresetFlags(count))
  {
    PreviewFlagLiterals();
  }

  /** Appending ` --sets <text> --template <template>` appends the custom flags */
  lemma CustomFlagsText(line: string, sets: string, template: string)
    ensures line + " --sets " + sets + " --template " + template
         == line + " " + CommandLine(CustomFlags(sets, template))
  {
    var f := CustomFlags(sets, template);
    var last := "--template" + " " + template;
    assert f[2..][1..] == [Verbatim(template)];
    assert CommandLine(f[2..]) == last;
    assert f == [Verbatim("--sets"), Verbatim(sets)] + f[2..];
    FlagText("--sets", Verbatim(sets), f[2..]);
    PreviewFlagLiterals();
    FlagStep(" --sets ", "--sets", sets, last);
    LastFlag(" --template ", "--template", template);
    calc {
      line + " " + CommandLine(f);
      line + (" " + CommandLine(f));
      line + (" --sets " + sets + (" " + last));
      line + (" --sets " + sets + (" --template " + template));
      { Regroup4(line, " --sets ", sets, " --template ", template); }
      line + " --sets " + sets + " --template " + template;
    }
  }

  /** `generateQuizCommand`'s construction of `command`, step by step: the
      quick-pick's label decides between the custom flow and a preset, whose
      count is the label's text before its first space */
  method BuildGenerateCommand(filePath: string, pick: Option<GenerateOption>,
                              sets: Option<string>, template: Option<Template>)
    returns (command: Option<string>)
    ensures command == GenerateCommand(filePath, pick, sets, template)
  {
    if pick.None? {
      return None;
    }
    PresetLabels(pick.value);
    var line := "setwise generate --questions-file " + Quote(filePath);
    GenerateHeadText(filePath);
    if pick.value.Label() == "Custom..." {
      if sets.None? || sets.value == "" || template.None? {
        return None;
      }
      CustomFlagsText(line, sets.value, template.value.Name());
      CommandLineAppend(GenerateHead(filePath), CustomFlags(sets.value, template.value.Name()));
      line := line + " --sets " + sets.value + " --template " + template.value.Name();
    } else {
      var count := SplitFirst(pick.value.Label(), ' ');
      PresetFlagsText(line, count);
      CommandLineAppend(GenerateHead(filePath), PresetFlags(count));
      line := line + " --sets " + count;
    }
    return Some(line);
  }

  /** A preset passes the tool its set count and no template */
  lemma GeneratePresetArgv(filePath: string, option: GenerateOption,
                           sets: Option<string>, template: Option<Template>)
    requires IsQuotable(filePath) && option != Custom
    ensures GenerateCommand(filePath, Some(option), sets, template).Some?
    ensures Words(GenerateCommand(filePath, Some(option), sets, template).value)
         == ["setwise", "generate", "--questions-file", filePath] + ["--sets", option.Sets()]
  {
    var h: seq<Arg> := GenerateHead(filePath);
    var f: seq<Arg> := PresetFlags(option.Sets());
    PresetCommand(filePath, option, sets, template);
    GenerateHeadReadsBack(filePath);
    PresetFlagsReadBack(option);
    AllReadBackAppend(h, f);
    CommandLineWords(h + f);
    TextsAppend(h, f);
  }

  /** A preset runs the head and its set count */
  lemma PresetCommand(filePath: string, option: GenerateOption,
                      sets: Option<string>, template: Option<Template>)
    requires option != Custom
    ensures GenerateCommand(filePath, Some(option), sets, template)
         == Some(CommandLine(GenerateHead(filePath) + PresetFlags(option.Sets())))
  {
  }

  lemma PresetFlagsReadBack(option: GenerateOption)
    requires option != Custom
    ensures AllReadBack(PresetFlags(option.Sets()))
    ensures Texts(PresetFlags(option.Sets())) == ["--sets", option.Sets()]
  {
    assert IsBareWord("--sets");
    assert IsBareWord(option.Sets());
  }

  lemma CustomFlagsReadBack(sets: string, template: Template)
    requires IsBareWord(sets)
    ensures AllReadBack(CustomFlags(sets, template.Name()))
    ensures Texts(CustomFlags(sets, template.Name())) == ["--sets", sets, "--template", template.Name()]
  {
    assert IsBareWord("--sets");
    assert IsBareWord("--template");
    TemplateNameBare(template);
  }

  /** Every template name is a bare word */
  lemma TemplateNameBare(template: Template)
    ensures IsBareWord(template.Name())
  {
    match template
    case Default => assert IsBareWord("default");
    case Compact => assert IsBareWord("compact");
    case Minimal => assert IsBareWord("minimal");
  }

  /** Custom passes a one-word accepted text and the chosen template as
      arguments of their own */
  lemma GenerateCustomArgv(filePath: string, sets: string, template: Template)
    requires IsQuotable(filePath) && IsBareWord(sets)
    ensures GenerateCommand(filePath, Some(Custom), Some(sets), Some(template)).Some?
    ensures Words(GenerateCommand(filePath, Some(Custom), Some(sets), Some(template)).value)
         == ["setwise", "generate", "--questions-file", filePath]
            + ["--sets", sets, "--template", template.Name()]
  {
    var h: seq<Arg> := GenerateHead(filePath);
    var f: seq<Arg> := CustomFlags(sets, template.Name());
    CustomCommand(filePath, sets, template);
    GenerateHeadReadsBack(filePath);
    CustomFlagsReadBack(sets, template);
    AllReadBackAppend(h, f);
    CommandLineWords(h + f);
    TextsAppend(h, f);
  }

  /** The literal `3 --seed 7`, split into its words */
  lemma SeedTextLiteral()
    ensures "3 --seed 7" == "3" + (" " + ("--seed" + (" " + "7")))
  {
  }

  /** With both answers given, the custom entry runs the head and the custom
      flags */
  lemma CustomCommand(filePath: string, sets: string, template: Template)
    requires sets != ""
    ensures GenerateCommand(filePath, Some(Custom), Some(sets), Some(template))
         == Some(CommandLine(GenerateHead(filePath) + CustomFlags(sets, template.Name())))
  {
  }

  /** The custom flags for `3 --seed 7` render as if the text were three
      arguments of its own */
  lemma SeedSplice(filePath: string)
    ensures CommandLine(GenerateHead(filePath) + CustomFlags("3 --seed 7", "default"))
         == CommandLine(GenerateHead(filePath) + SeedFlags())
  {
    var a: seq<Arg> := GenerateHead(filePath) + [Verbatim("--sets")];
    var ys: seq<Arg> := [Verbatim("3"), Verbatim("--seed"), Verbatim("7")];
    var c: seq<Arg> := [Verbatim("--template"), Verbatim("default")];
    SeedTextLiteral();
    assert ys[1..][1..] == [Verbatim("7")];
    assert CommandLine(ys[1..]) == "--seed" + " " + "7";
    assert CommandLine([Verbatim("3 --seed 7")]) == CommandLine(ys);
    CommandLineSplice(a, Verbatim("3 --seed 7"), ys, c);
    assert GenerateHead(filePath) + CustomFlags("3 --seed 7", "default") == a + [Verbatim("3 --seed 7")] + c;
    assert a + ys + c == GenerateHead(filePath) + SeedFlags();
  }

  /** The custom flags as the tool reads them for the text `3 --seed 7` */
  function SeedFlags(): seq<Arg> {
    [Verbatim("--sets"), Verbatim("3"), Verbatim("--seed"), Verbatim("7"),
     Verbatim("--template"), Verbatim("default")]
  }

  lemma SeedFlagsTexts()
    ensures Texts(SeedFlags()) == ["--sets", "3", "--seed", "7", "--template", "default"]
  {
  }

  lemma SeedFlagsReadBack()
    ensures AllReadBack(SeedFlags())
  {
    assert IsBareWord("--sets");
    assert IsBareWord("3");
    assert IsBareWord("--seed");
    assert IsBareWord("7");
    assert IsBareWord("--template");
    assert IsBareWord("default");
  }

  lemma SeedArgv(filePath: string)
    requires IsQuotable(filePath)
    ensures Words(CommandLine(GenerateHead(filePath) + SeedFlags()))
         == ["setwise", "generate", "--questions-file", filePath]
            + ["--sets", "3", "--seed", "7", "--template", "default"]
  {
    var h: seq<Arg> := GenerateHead(filePath);
    GenerateHeadReadsBack(filePath);
    SeedFlagsReadBack();
    SeedFlagsTexts();
    AllReadBackAppend(h, SeedFlags());
    CommandLineWords(h + SeedFlags());
    TextsAppend(h, SeedFlags());
  }

  /** The accepted text, not the number read from it, goes into the command:
      the box accepts `3 --seed 7`, and the tool then receives `--seed 7` as
      arguments of their own */
  lemma AcceptedSetCountIsSplicedVerbatim(filePath: string)
    requires IsQuotable(filePath)
    ensures SubmitSetCount(["3 --seed 7"]) == Some("3 --seed 7")
    ensures Words(GenerateCommand(filePath, Some(Custom), Some("3 --seed 7"), Some(Default)).value)
         == ["setwise", "generate", "--questions-file", filePath]
            + ["--sets", "3", "--seed", "7", "--template", "default"]
  {
    SeedInjectionAccepted();
    CustomCommand(filePath, "3 --seed 7", Default);
    SeedSplice(filePath);
    SeedArgv(filePath);
  }

  /** The validator does not confine the accepted text to words the shell
      reads back unchanged: a digit followed by a shell operator such as `;`
      (as in `7;rm`), a tab or a quote passes it */
  lemma AcceptedSetCountMayLeaveShellWords(d: char, c: char, rest: string)
    requires '1' <= d <= '9' && !IsPlainChar(c)
    ensures SetCountError([d, c] + rest) == None
    ensures !IsBareWord([d, c] + rest)
  {
    var s := [d, c] + rest;
    assert s[0] == d && s[1] == c;
    SetCountAcceptsLeadingDigit(s);
  }

  // ---------------------------------------------------------------------
  // Validate, fix LaTeX, statistics

  /** `setwise questions <subcommand> "<file>"` */
  function QuestionsArgs(subcommand: string, filePath: string): seq<Arg> {
    [Verbatim("setwise"), Verbatim("questions"), Verbatim(subcommand), Quoted(filePath)]
  }

  /** `validateQuestionsCommand`'s command line */
  function ValidateCommand(filePath: string): string {
    CommandLine(QuestionsArgs("validate", filePath))
  }

  /** The entries of the "LaTeX error fixing options" quick-pick */
  datatype FixOption = PreviewFixes | ApplyFixes {
    function Label(): string {
      match this
      case PreviewFixes => "Preview fixes"
      case ApplyFixes => "Apply fixes"
    }
  }

  /** `isDryRun`: the chosen label is `Preview fixes` */
  function IsDryRun(choice: FixOption): (dry: bool)
    ensures dry <==> choice == PreviewFixes
  {
    choice.Label() == "Preview fixes"
  }

  /** `fixLatexCommand`'s command line */
  function FixLatexCommand(filePath: string, dryRun: bool): string {
    CommandLine(QuestionsArgs("fix-latex", filePath) + (if dryRun then [Verbatim("--dry-run")] else []))
  }

  /** `showStatsCommand`'s command line */
  function StatsCommand(filePath: string): string {
    CommandLine(QuestionsArgs("stats", filePath))
  }

  /** The command line of a `questions` subcommand, regrouped as one prefix
      and the quoted file */
  lemma QuestionsText(subcommand: string, filePath: string)
    ensures CommandLine(QuestionsArgs(subcommand, filePath))
         == ("setwise" + (" " + ("questions" + (" " + (subcommand + " "))))) + Quote(filePath)
  {
    var args := QuestionsArgs(subcommand, filePath);
    assert args[1..][1..][1..] == [Quoted(filePath)];
    assert CommandLine(args[1..][1..]) == subcommand + " " + Quote(filePath);
    assert CommandLine(args[1..]) == "questions" + " " + CommandLine(args[1..][1..]);
    Regroup3("setwise", "questions", subcommand, Quote(filePath));
  }

  /** The prefixes of the `questions` command lines, split into their words */
  lemma ValidateLiteral()
    ensures "setwise questions validate " == "setwise" + (" " + ("questions" + (" " + ("validate" + " "))))
  {
  }

  lemma FixLatexLiteral()
    ensures "setwise questions fix-latex " == "setwise" + (" " + ("questions" + (" " + ("fix-latex" + " "))))
    ensures " --dry-run" == " " + "--dry-run"
  {
  }

  lemma StatsLiteral()
    ensures "setwise questions stats " == "setwise" + (" " + ("questions" + (" " + ("stats" + " "))))
  {
  }

  /** `validateQuestionsCommand` builds exactly its template literal */
  lemma ValidateCommandText(filePath: string)
    ensures ValidateCommand(filePath) == "setwise questions validate " + Quote(filePath)
  {
    QuestionsText("validate", filePath);
    ValidateLiteral();
  }

  /** `fixLatexCommand` builds exactly its template literal */
  lemma FixLatexCommandText(filePath: string, dryRun: bool)
    ensures FixLatexCommand(filePath, dryRun)
         == "setwise questions fix-latex " + Quote(filePath) + (if dryRun then " --dry-run" else "")
  {
    var args := QuestionsArgs("fix-latex", filePath);
    QuestionsText("fix-latex", filePath);
    FixLatexLiteral();
    if dryRun {
      CommandLineAppend(args, [Verbatim("--dry-run")]);
    } else {
      assert args + [] == args;
    }
  }

  /** `showStatsCommand` builds exactly its template literal */
  lemma StatsCommandText(filePath: string)
    ensures StatsCommand(filePath) == "setwise questions stats " + Quote(filePath)
  {
    QuestionsText("stats", filePath);
    StatsLiteral();
  }

  lemma QuestionsReadsBack(subcommand: string, filePath: string)
    requires IsBareWord(subcommand) && IsQuotable(filePath)
    ensures AllReadBack(QuestionsArgs(subcommand, filePath))
    ensures Texts(QuestionsArgs(subcommand, filePath)) == ["setwise", "questions", subcommand, filePath]
  {
    assert IsBareWord("setwise");
    assert IsBareWord("questions");
    var args := QuestionsArgs(subcommand, filePath);
    assert Texts(args[1..][1..]) == [subcommand, filePath];
  }

  /** `validate` passes the tool the file as one argument */
  lemma ValidateArgv(filePath: string)
    requires IsQuotable(filePath)
    ensures Words(ValidateCommand(filePath)) == ["setwise", "questions", "validate", filePath]
  {
    assert IsBareWord("validate");
    QuestionsReadsBack("validate", filePath);
    CommandLineWords(QuestionsArgs("validate", filePath));
  }

  /** `fix-latex` passes the tool the file as one argument, and `--dry-run`
      exactly for a dry run */
  lemma FixLatexArgv(filePath: string, dryRun: bool)
    requires IsQuotable(filePath)
    ensures Words(FixLatexCommand(filePath, dryRun))
         == ["setwise", "questions", "fix-latex", filePath] + (if dryRun then ["--dry-run"] else [])
  {
    var args := QuestionsArgs("fix-latex", filePath);
    var extra: seq<Arg> := if dryRun then [Verbatim("--dry-run")] else [];
    assert IsBareWord("fix-latex");
    assert IsBareWord("--dry-run");
    QuestionsReadsBack("fix-latex", filePath);
    AllReadBackAppend(args, extra);
    CommandLineWords(args + extra);
    TextsAppend(args, extra);
  }

  /** `stats` passes the tool the file as one argument */
  lemma StatsArgv(filePath: string)
    requires IsQuotable(filePath)
    ensures Words(StatsCommand(filePath)) == ["setwise", "questions", "stats", filePath]
  {
    assert IsBareWord("stats");
    QuestionsReadsBack("stats", filePath);
    CommandLineWords(QuestionsArgs("stats", filePath));
  }
}

=== FILE: eligibility.dfy ===
/** Which files the extension acts on: `isSetwiseQuestionsFile`
    (src/extension.ts), the test every command guard and both automatic
    triggers apply to a file name. */
module Eligibility {
  import opened JsText

  /** The whole path (directories included) contains `questions` and ends
      in `.py`, both case-sensitively */
  predicate IsQuestionsFile(fileName: string) {
    Includes(fileName, "questions") && EndsWith(fileName, ".py")
  }

  /** A `questions` directory makes every Python file below it eligible,
      whatever the file's own name */
  lemma EligibilityReadsWholePath(dir: string, name: string)
    requires Includes(dir, "questions") && EndsWith(name, ".py")
    ensures IsQuestionsFile(dir + "/" + name)
  {
    IncludesWithin([], dir, "/" + name, "questions");
    assert [] + dir + ("/" + name) == dir + "/" + name;
    var p := dir + "/" + name;
    assert p[|p| - 3..] == name[|name| - 3..];
  }

  /** An eligible name stays eligible in any directory */
  lemma EligibleInAnyDirectory(dir: string, name: string)
    requires IsQuestionsFile(name)
    ensures IsQuestionsFile(dir + "/" + name)
  {
    IncludesWithin(dir + "/", name, [], "questions");
    assert dir + "/" + name + [] == dir + "/" + name;
    var p := dir + "/" + name;
    assert p[|p| - 3..] == name[|name| - 3..];
  }

  /** A name is eligible whenever `questions` occurs in it before a final `.py` */
  lemma EligibleWithMarker(before: string, between: string)
    ensures IsQuestionsFile(before + "questions" + between + ".py")
  {
    IncludesInfix(before, "questions", between + ".py");
    assert before + "questions" + (between + ".py") == before + "questions" + between + ".py";
  }

  /** The letters of `questions` are none of `.`, `p`, `y`, so the marker
      and the extension never overlap */
  lemma MarkerAvoidsExtension()
    ensures forall k :: 0 <= k < 9 ==> "questions"[k] != '.' && "questions"[k] != 'p' && "questions"[k] != 'y'
  {
  }

  /** An eligible path is some text, `questions`, some text, then `.py` */
  lemma EligibleHasMarker(p: string)
    requires IsQuestionsFile(p)
    ensures exists before, between :: p == before + "questions" + between + ".py"
  {
    IncludesIffOccurs(p, "questions");
    var i :| OccursAt(p, "questions", i);
    if i + 9 > |p| - 3 {
      var j := if i >= |p| - 3 then i else |p| - 3;
      assert p[i..i + 9][j - i] == p[j] == "questions"[j - i];
      assert p[|p| - 3..][j - (|p| - 3)] == p[j] == ".py"[j - (|p| - 3)];
      MarkerAvoidsExtension();
      assert false;
    }
    var before, between := p[..i], p[i + 9..|p| - 3];
    assert p == before + "questions" + between + ".py";
  }

  /** The file test holds exactly of paths shaped `<text>questions<text>.py` */
  lemma QuestionsFileShape(p: string)
    ensures IsQuestionsFile(p) <==> exists before, between :: p == before + "questions" + between + ".py"
  {
    if IsQuestionsFile(p) {
      EligibleHasMarker(p);
    }
    if exists before, between :: p == before + "questions" + between + ".py" {
      var before, between :| p == before + "questions" + between + ".py";
      EligibleWithMarker(before, between);
    }
  }

  /** `midterm_questions.py` is eligible */
  lemma MidtermQuestionsEligible()
    ensures IsQuestionsFile("midterm_questions.py")
  {
    EligibleWithMarker("midterm_", "");
    assert "midterm_" + "questions" + "" + ".py" == "midterm_questions.py";
  }

  /** The `questions` test does not fold case: `Questions.py` is not eligible */
  lemma CapitalisedNameIneligible()
    ensures !IsQuestionsFile("Questions.py")
  {
    MissingCharExcludes("Questions.py", "questions", 'q');
  }

  /** The extension test does not fold case: `questions.PY` is not eligible */
  lemma UpperCaseExtensionIneligible()
    ensures !IsQuestionsFile("questions.PY")
  {
    var p := "questions.PY";
    assert p[|p| - 3..][1] == 'P';
  }
}

=== FILE: js_number.dfy ===
/** JavaScript's conversions between integers and text that the extension
    uses: the global `parseInt` with no radix argument, and the integer
    rendering a template literal `${n}` performs. Numbers are unbounded
    integers; see README for why double rounding never matters here. */
module JsNumber {
  import opened JsText

  /** What `parseInt` returns: NaN, or an integral number */
  datatype IntOrNaN = NaN | Int(value: int)

  predicate IsDecimalDigit(c: char) {
    '0' <= c <= '9'
  }

  /** A digit of radix 16 when `hex`, else of radix 10 */
  predicate IsRadixDigit(c: char, hex: bool) {
    IsDecimalDigit(c) || (hex && ('a' <= c <= 'f' || 'A' <= c <= 'F'))
  }

  function Radix(hex: bool): nat {
    if hex then 16 else 10
  }

  function DigitValue(c: char): (v: nat)
    requires IsRadixDigit(c, true)
    ensures v < 16 && (IsDecimalDigit(c) <==> v < 10)
  {
    if IsDecimalDigit(c) then c as int - '0' as int
    else if 'a' <= c <= 'f' then c as int - 'a' as int + 10
    else c as int - 'A' as int + 10
  }

  predicate AllDigits(d: string, hex: bool) {
    forall k :: 0 <= k < |d| ==> IsRadixDigit(d[k], hex)
  }

  /** The value of a digit string read most significant digit first */
  function DigitsValue(d: string, hex: bool): nat
    requires AllDigits(d, hex)
  {
    if d == [] then 0
    else DigitsValue(d[..|d| - 1], hex) * Radix(hex) + DigitValue(d[|d| - 1])
  }

  /** The longest prefix of `s` made of digits of the radix */
  function DigitPrefix(s: string, hex: bool): (d: string)
    ensures StartsWith(s, d) && AllDigits(d, hex)
    ensures |d| < |s| ==> !IsRadixDigit(s[|d|], hex)
    decreases |s|
  {
    if s != [] && IsRadixDigit(s[0], hex) then [s[0]] + DigitPrefix(s[1..], hex) else []
  }

  /** `parseInt` after the sign: radix 16 after a `0x`/`0X` prefix, else
      radix 10; the longest digit prefix is read, NaN when it is empty */
  function ParseUnsigned(u: string): IntOrNaN {
    var hex := |u| >= 2 && u[0] == '0' && (u[1] == 'x' || u[1] == 'X');
    var digits := DigitPrefix(if hex then u[2..] else u, hex);
    if digits == [] then NaN else Int(DigitsValue(digits, hex))
  }

  function Negate(v: IntOrNaN): IntOrNaN {
    match v
    case NaN => NaN
    case Int(n) => Int(-n)
  }

  /** `parseInt` after the leading whitespace: an optional sign, then the
      unsigned number */
  function ParseTrimmed(t: string): IntOrNaN {
    if t != [] && t[0] == '-' then Negate(ParseUnsigned(t[1..]))
    else if t != [] && t[0] == '+' then ParseUnsigned(t[1..])
    else ParseUnsigned(t)
  }

  /** `parseInt(s)` with no radix argument: skip leading whitespace, then
      read a number */
  function ParseInt(s: string): IntOrNaN {
    ParseTrimmed(TrimStart(s))
  }

  function DigitChar(d: nat): (c: char)
    requires d < 10
    ensures IsDecimalDigit(c) && DigitValue(c) == d
  {
    ('0' as int + d) as char
  }

  /** The decimal numeral of `n`, without leading zeros */
  function DecimalString(n: nat): (r: string)
    ensures r != [] && AllDigits(r, false)
    ensures r[0] == '0' ==> r == "0"
  {
    if n < 10 then [DigitChar(n)] else DecimalString(n / 10) + [DigitChar(n % 10)]
  }

  /** The text `${n}` yields for an integral number `n` */
  function NumberToString(n: int): string {
    if n < 0 then "-" + DecimalString(-n) else DecimalString(n)
  }

  lemma {:induction false} DecimalStringValue(n: nat)
    ensures DigitsValue(DecimalString(n), false) == n
  {
    if n >= 10 {
      DecimalStringValue(n / 10);
      var r := DecimalString(n);
      assert r[..|r| - 1] == DecimalString(n / 10);
    }
  }

  /** A string of digits is its own longest digit prefix */
  lemma {:induction false} DigitPrefixOfDigits(d: string, rest: string, hex: bool)
    requires AllDigits(d, hex)
    requires rest == [] || !IsRadixDigit(rest[0], hex)
    ensures DigitPrefix(d + rest, hex) == d
    decreases |d|
  {
    if d != [] {
      assert (d + rest)[1..] == d[1..] + rest;
      DigitPrefixOfDigits(d[1..], rest, hex);
    } else {
      assert d + rest == rest;
    }
  }

  /** A decimal numeral without leading zeros is read as its value */
  lemma ParseUnsignedNumeral(u: string)
    requires u != [] && AllDigits(u, false) && (u[0] == '0' ==> |u| == 1)
    ensures ParseUnsigned(u) == Int(DigitsValue(u, false))
  {
    DigitPrefixOfDigits(u, [], false);
    assert u + [] == u;
  }

  /** Text that starts with neither whitespace is its own `trimStart` */
  lemma TrimStartNoSpace(s: string)
    requires s != [] && !IsWhitespace(s[0])
    ensures TrimStart(s) == s
  {
  }

  /** A decimal numeral without leading zeros is read as its value */
  lemma ParseIntNumeral(u: string)
    requires u != [] && AllDigits(u, false) && (u[0] == '0' ==> |u| == 1)
    ensures ParseInt(u) == Int(DigitsValue(u, false))
  {
    ParseUnsignedNumeral(u);
    DigitIsNoSpace(u[0]);
    TrimStartNoSpace(u);
    assert ParseTrimmed(u) == ParseUnsigned(u);
  }

  lemma DigitIsNoSpace(c: char)
    requires IsRadixDigit(c, false)
    ensures !IsWhitespace(c) && c != '-' && c != '+'
  {
  }

  /** ... and after a minus sign as its negation */
  lemma ParseIntMinusNumeral(u: string)
    requires u != [] && AllDigits(u, false) && (u[0] == '0' ==> |u| == 1)
    ensures ParseInt("-" + u) == Int(-(DigitsValue(u, false) as int))
  {
    ParseUnsignedNumeral(u);
    ParseIntAfterMinus(u, DigitsValue(u, false));
  }

  /** A minus sign before text that reads as `v` reads as `-v` */
  lemma ParseIntAfterMinus(u: string, v: int)
    requires ParseUnsigned(u) == Int(v)
    ensures ParseInt("-" + u) == Int(-v)
  {
    var s := "-" + u;
    assert s[0] == '-' && s[1..] == u;
    MinusIsNoSpace();
    TrimStartNoSpace(s);
  }

  lemma MinusIsNoSpace()
    ensures !IsWhitespace('-')
  {
  }

  lemma ParseIntDecimal(m: nat)
    ensures ParseInt(DecimalString(m)) == Int(m)
  {
    DecimalStringValue(m);
    ParseIntNumeral(DecimalString(m));
  }

  lemma ParseIntMinusDecimal(m: nat)
    ensures ParseInt("-" + DecimalString(m)) == Int(-(m as int))
  {
    var u := DecimalString(m);
    assert u != [] && AllDigits(u, false) && (u[0] == '0' ==> |u| == 1);
    DecimalStringValue(m);
    ParseIntMinusNumeral(u);
  }

  /** `parseInt` reads back every integer it is shown as text */
  lemma ParseIntNumberToString(n: int)
    ensures ParseInt(NumberToString(n)) == Int(n)
  {
    if n < 0 {
      var m: nat := -n;
      assert NumberToString(n) == "-" + DecimalString(m);
      ParseIntMinusDecimal(m);
    } else {
      assert NumberToString(n) == DecimalString(n);
      ParseIntDecimal(n);
    }
  }

  /** A numeral that does not start with 0 is read up to the first non-digit,
      whatever follows it */
  lemma ParseIntNumeralPrefix(d: string, rest: string)
    requires d != [] && AllDigits(d, false) && d[0] != '0'
    requires rest == [] || !IsDecimalDigit(rest[0])
    ensures ParseInt(d + rest) == Int(DigitsValue(d, false))
  {
    var s := d + rest;
    assert s[0] == d[0];
    DigitIsNoSpace(d[0]);
    TrimStartNoSpace(s);
    assert ParseInt(s) == ParseTrimmed(s);
    assert ParseTrimmed(s) == ParseUnsigned(s);
    DigitPrefixOfDigits(d, rest, false);
    assert !(|s| >= 2 && s[0] == '0');
    assert DigitPrefix(s, false) == d;
  }

  lemma TwoDigitsValue(s: string)
    requires |s| == 2 && IsDecimalDigit(s[0]) && IsDecimalDigit(s[1])
    ensures AllDigits(s, false)
    ensures DigitsValue(s, false) == DigitValue(s[0]) * 10 + DigitValue(s[1])
  {
    var first := s[..1];
    assert first[..0] == [] && first[0] == s[0];
    assert DigitsValue(first, false) == DigitValue(s[0]);
    assert s[..|s| - 1] == first;
  }

  lemma ParseIntTwoDigits(s: string)
    requires |s| == 2 && '1' <= s[0] <= '9' && IsDecimalDigit(s[1])
    ensures ParseInt(s) == Int(DigitValue(s[0]) * 10 + DigitValue(s[1]))
  {
    DigitIsNoSpace(s[0]);
    assert AllDigits(s, false);
    ParseIntNumeralPrefix(s, []);
    assert s + [] == s;
    TwoDigitsValue(s);
  }

  /** Leading whitespace never changes what `parseInt` reads */
  lemma ParseIntSkipsWhitespace(c: char, s: string)
    requires IsWhitespace(c)
    ensures ParseInt([c] + s) == ParseInt(s)
  {
    assert ([c] + s)[1..] == s;
    assert TrimStart([c] + s) == TrimStart(s);
  }

  /** Text that starts with neither whitespace, a sign nor a digit is NaN */
  lemma ParseIntNoDigits(s: string)
    requires s != [] && !IsWhitespace(s[0]) && !IsDecimalDigit(s[0]) && s[0] != '-' && s[0] != '+'
    ensures ParseInt(s) == NaN
  {
    assert TrimStart(s) == s;
  }

  /** `0x` or `0X` followed by one hexadecimal digit and no further one is
      read as that digit's value */
  lemma ParseIntHexDigit(s: string)
    requires |s| >= 3 && s[0] == '0' && (s[1] == 'x' || s[1] == 'X') && IsRadixDigit(s[2], true)
    requires |s| == 3 || !IsRadixDigit(s[3], true)
    ensures ParseInt(s) == Int(DigitValue(s[2]))
  {
    TrimStartNoSpace(s);
    var t := s[2..];
    assert t[0] == s[2] && t[1..] == s[3..];
    assert DigitPrefix(t[1..], true) == [];
    assert DigitPrefix(t, true) == [s[2]];
    assert [s[2]][..0] == [];
    assert DigitsValue([s[2]], true) == DigitValue(s[2]);
  }
}

=== FILE: js_text.dfy ===
/** The parts of JavaScript's String API that the extension's decisions rest on:
    `includes`, `endsWith`, `trim` and `split(sep)[0]`. `StartsWith`, which
    the extension does not call, is here only to state properties of the
    others. Strings are sequences of Unicode scalar values. */
module JsText {

  /** `s.startsWith(prefix)` */
  predicate StartsWith(s: string, prefix: string) {
    |prefix| <= |s| && s[..|prefix|] == prefix
  }

  /** `s.endsWith(suffix)` */
  predicate EndsWith(s: string, suffix: string) {
    |suffix| <= |s| && s[|s| - |suffix|..] == suffix
  }

  /** `sub` occurs in `s` at index `i` */
  predicate OccursAt(s: string, sub: string, i: int) {
    0 <= i && i + |sub| <= |s| && s[i..i + |sub|] == sub
  }

  /** `s.includes(sub)`: tries every start position from the left */
  predicate Includes(s: string, sub: string)
    decreases |s|
  {
    StartsWith(s, sub) || (s != [] && Includes(s[1..], sub))
  }

  /** The left-to-right scan finds `sub` exactly when it occurs somewhere */
  lemma {:induction false} IncludesIffOccurs(s: string, sub: string)
    ensures Includes(s, sub) <==> exists i :: OccursAt(s, sub, i)
    decreases |s|
  {
    if StartsWith(s, sub) {
      assert OccursAt(s, sub, 0);
    } else if s != [] {
      IncludesIffOccurs(s[1..], sub);
      if Includes(s[1..], sub) {
        var i :| OccursAt(s[1..], sub, i);
        assert s[1..][i..i + |sub|] == s[i + 1..i + 1 + |sub|];
        assert OccursAt(s, sub, i + 1);
      }
      forall i | OccursAt(s, sub, i)
        ensures OccursAt(s[1..], sub, i - 1)
      {
        assert i != 0;
        assert s[1..][i - 1..i - 1 + |sub|] == s[i..i + |sub|];
      }
    }
  }

  /** Whatever surrounds an occurrence, `includes` finds it */
  lemma IncludesInfix(a: string, sub: string, b: string)
    ensures Includes(a + sub + b, sub)
  {
    var s := a + sub + b;
    assert s[|a|..|a| + |sub|] == sub;
    assert OccursAt(s, sub, |a|);
    IncludesIffOccurs(s, sub);
  }

  /** Text around a string never hides an occurrence in it */
  lemma IncludesWithin(a: string, s: string, b: string, sub: string)
    requires Includes(s, sub)
    ensures Includes(a + s + b, sub)
  {
    IncludesIffOccurs(s, sub);
    var i :| OccursAt(s, sub, i);
    assert (a + s + b)[|a| + i..|a| + i + |sub|] == s[i..i + |sub|];
    assert OccursAt(a + s + b, sub, |a| + i);
    IncludesIffOccurs(a + s + b, sub);
  }

  /** A string lacking one of the characters of `sub` cannot include it */
  lemma MissingCharExcludes(s: string, sub: string, c: char)
    requires c in sub && c !in s
    ensures !Includes(s, sub)
  {
    IncludesIffOccurs(s, sub);
    var j :| 0 <= j < |sub| && sub[j] == c;
    forall i | 0 <= i && i + |sub| <= |s| ensures !OccursAt(s, sub, i) {
      assert s[i..i + |sub|][j] == s[i + j] != c;
    }
  }

  /** JavaScript's WhiteSpace and LineTerminator code points, the set `trim`
      and `parseInt` strip */
  predicate IsWhitespace(c: char) {
    c == '\t' || c == '\n' || c == '\U{B}' || c == '\U{C}' || c == '\r' || c == ' '
    || c == '\U{A0}' || c == '\U{1680}' || ('\U{2000}' <= c <= '\U{200A}')
    || c == '\U{2028}' || c == '\U{2029}' || c == '\U{202F}' || c == '\U{205F}'
    || c == '\U{3000}' || c == '\U{FEFF}'
  }

  /** `s.trimStart()`: the suffix left after the leading whitespace */
  function TrimStart(s: string): (r: string)
    ensures |r| <= |s| && r == s[|s| - |r|..]
    ensures forall k :: 0 <= k < |s| - |r| ==> IsWhitespace(s[k])
    ensures r != [] ==> !IsWhitespace(r[0])
    decreases |s|
  {
    if s != [] && IsWhitespace(s[0]) then TrimStart(s[1..]) else s
  }

  /** `s.trimEnd()`: the prefix left before the trailing whitespace */
  function TrimEnd(s: string): (r: string)
    ensures |r| <= |s| && r == s[..|r|]
    ensures forall k :: |r| <= k < |s| ==> IsWhitespace(s[k])
    ensures r != [] ==> !IsWhitespace(r[|r| - 1])
    decreases |s|
  {
    if s != [] && IsWhitespace(s[|s| - 1]) then TrimEnd(s[..|s| - 1]) else s
  }

  /** `s.trim()`: the infix of `s` that is left when the whitespace on both
      sides is cut away; it neither starts nor ends with whitespace */
  function Trim(s: string): (r: string)
    ensures exists i :: OccursAt(s, r, i)
                     && (forall k :: 0 <= k < i ==> IsWhitespace(s[k]))
                     && (forall k :: i + |r| <= k < |s| ==> IsWhitespace(s[k]))
    ensures r != [] ==> !IsWhitespace(r[0]) && !IsWhitespace(r[|r| - 1])
  {
    var t := TrimStart(s);
    var r := TrimEnd(t);
    var i := |s| - |t|;
    assert s[i..i + |r|] == r;
    assert OccursAt(s, r, i);
    r
  }

  /** `s.split(sep)[0]`: the text before the first `sep`, or all of `s` */
  function SplitFirst(s: string, sep: char): (r: string)
    ensures StartsWith(s, r) && sep !in r
    ensures |r| < |s| ==> s[|r|] == sep
    decreases |s|
  {
    if s == [] || s[0] == sep then [] else [s[0]] + SplitFirst(s[1..], sep)
  }
}

=== FILE: options.dfy ===
/** The optional value that stands for JavaScript's `undefined`/`null` results:
    a dismissed quick-pick or input box, a missing editor, an unset setting. */
module Options {

  datatype Option<+T> = None | Some(value: T) {

    /** The value, or `default` when there is none (as `config.get(key, default)` does) */
    function GetOr(default: T): T {
      match this
      case Some(v) => v
      case None => default
    }
  }
}

=== FILE: paths.dfy ===
/** POSIX `path.dirname` and `path.join`, for the shapes of path the
    extension passes them: a file path, and a directory joined with one path
    segment. `Basename`, which the extension does not call, is here only to
    state what `Join` produces. Normalisation of `.`, `..` and repeated separators is
    not modelled. */
module Paths {

  /** The index of the last `/` in `p`, or -1 when there is none */
  function LastSlash(p: string): (k: int)
    ensures -1 <= k < |p|
    ensures k >= 0 ==> p[k] == '/'
    ensures forall j :: k < j < |p| ==> p[j] != '/'
    decreases |p|
  {
    if p == [] then -1
    else if p[|p| - 1] == '/' then |p| - 1
    else LastSlash(p[..|p| - 1])
  }

  /** `path.dirname(p)`: everything before the last separator; `/` for a file
      in the root, `.` when there is no separator */
  function Dirname(p: string): (d: string)
    ensures d != []
  {
    var k := LastSlash(p);
    if k < 0 then "." else if k == 0 then "/" else p[..k]
  }

  /** `path.basename(p)`: everything after the last separator */
  function Basename(p: string): string {
    p[LastSlash(p) + 1..]
  }

  /** `path.join(dir, name)` for a directory and a single segment */
  function Join(dir: string, name: string): string {
    if dir == "." then name
    else if dir == "/" then "/" + name
    else dir + "/" + name
  }

  /** Joining a segment to a directory makes a child of that directory */
  lemma JoinIsChild(dir: string, name: string)
    requires dir != [] && '/' !in name
    ensures Dirname(Join(dir, name)) == dir
    ensures Basename(Join(dir, name)) == name
  {
    var p := Join(dir, name);
    if dir == "." {
      assert LastSlash(p) == -1;
    } else if dir == "/" {
      assert p[0] == '/';
      assert LastSlash(p) == 0;
      assert p[1..] == name;
    } else {
      assert p[|dir|] == '/';
      assert LastSlash(p) == |dir|;
      assert p[..|dir|] == dir;
      assert p[|dir| + 1..] == name;
    }
  }

  /** Splitting a path at its last separator and joining the halves gives the
      path back, except that a leading `./` or `//` before the name is lost */
  lemma DirnameJoinsBack(p: string)
    ensures Join(Dirname(p), Basename(p)) == p
         || p == "./" + Basename(p) || p == "//" + Basename(p)
  {
    var k := LastSlash(p);
    if k > 0 {
      assert p == p[..k] + "/" + p[k + 1..];
      if k == 1 {
        assert p == [p[0]] + "/" + Basename(p);
      }
    } else if k == 0 {
      assert p == "/" + p[1..];
    }
  }

  /** Dirname never introduces a character that the path does not contain */
  lemma DirnameWithin(p: string, c: char)
    requires c !in p && c != '.' && c != '/'
    ensures c !in Dirname(p)
  {
    var k := LastSlash(p);
    if k > 0 {
      assert forall j :: 0 <= j < k ==> p[..k][j] == p[j];
    }
  }
}

=== FILE: presentation.dfy ===
/** How each workflow presents the outcome of the `setwise` process it ran
    (the `exec` callbacks of src/extension.ts): the process result is an
    input value and the editor's reactions are a sequence of actions. */
module Presentation {
  import opened Options
  import opened JsText
  import opened Paths

  /** What `exec` hands its callback: the error's message when the process
      failed, and the two output streams */
  datatype ProcessResult = ProcessResult(error: Option<string>, stdout: string, stderr: string)

  /** The editor reactions the callbacks perform */
  datatype Action =
    | ShowInformation(message: string)
    | ShowWarning(message: string)
    | ShowError(message: string)
    | OpenFile(path: string)                 // `vscode.open` on a file
    | OpenPlaintextDocument(content: string) // a new untitled plaintext document, shown
    | RevertActiveEditor                     // `workbench.action.files.revert`

  /** Which callback reads the result; preview knows its output directory and
      fix-latex whether it was a dry run */
  datatype Handler =
    | PreviewResult(outputDir: string)
    | GenerateResult
    | ValidateResult
    | FixLatexResult(dryRun: bool)
    | StatsResult

  const ValidMarker := "\U{2705} "
  const WarningMarker := "\U{26A0}\U{FE0F} "
  const FixPreviewHeader := "LaTeX fixes preview:\n"

  /** The banner for a validate run that succeeded: information when the
      output mentions `Valid`, a warning otherwise, either way with the
      trimmed output after a marker */
  function ValidateBanner(stdout: string): (a: Action)
    ensures a.ShowInformation? || a.ShowWarning?
  {
    if Includes(stdout, "Valid") then ShowInformation(ValidMarker + Trim(stdout))
    else ShowWarning(WarningMarker + Trim(stdout))
  }

  /** The error banner a callback shows when the process failed with
      `message` */
  function FailureBanner(h: Handler, message: string, stderr: string): (a: Action)
    ensures a.ShowError?
  {
    match h
    case PreviewResult(_) => ShowError("Preview failed: " + message)
    case GenerateResult => ShowError("Generation failed: " + message)
    case ValidateResult => ShowError("Validation failed: " + (if stderr != "" then stderr else message))
    case FixLatexResult(_) => ShowError("Fix failed: " + message)
    case StatsResult => ShowError("Stats failed: " + message)
  }

  /** The document a successful preview opens: the first set inside its
      output directory */
  function FirstSetPath(outputDir: string): string {
    Join(outputDir, "quiz_set_1.pdf")
  }

  /** What a callback does when the process succeeded: never an error banner */
  function SuccessActions(h: Handler, stdout: string): (actions: seq<Action>)
    ensures actions != []
    ensures forall k :: 0 <= k < |actions| ==> !actions[k].ShowError?
  {
    match h
    case PreviewResult(outputDir) =>
      [OpenFile(FirstSetPath(outputDir)), ShowInformation("Quiz preview generated successfully!")]
    case GenerateResult => [ShowInformation("Quiz generated successfully! Check the output folder.")]
    case ValidateResult => [ValidateBanner(stdout)]
    case FixLatexResult(dryRun) =>
      if dryRun then [ShowInformation(FixPreviewHeader + stdout)]
      else [ShowInformation("LaTeX errors fixed successfully!"), RevertActiveEditor]
    case StatsResult => [OpenPlaintextDocument(stdout)]
  }

  /** The actions a callback performs for a process result. A failure shows
      exactly one error banner and nothing else; a success never shows one */
  function Present(h: Handler, r: ProcessResult): (actions: seq<Action>)
    ensures actions != []
    ensures r.error.Some? ==> |actions| == 1 && actions[0].ShowError?
    ensures r.error.None? ==> forall k :: 0 <= k < |actions| ==> !actions[k].ShowError?
  {
    match r.error
    case Some(message) => [FailureBanner(h, message, r.stderr)]
    case None => SuccessActions(h, r.stdout)
  }

  /** Apart from validate, a failure is reported from the error's message
      alone: the output streams do not matter, and the banner ends with the
      message */
  lemma FailureReportsMessageOnly(h: Handler, r1: ProcessResult, r2: ProcessResult)
    requires !h.ValidateResult? && r1.error.Some? && r1.error == r2.error
    ensures Present(h, r1) == Present(h, r2)
    ensures EndsWith(Present(h, r1)[0].message, r1.error.value)
  {
    var m := Present(h, r1)[0].message;
    var e := r1.error.value;
    assert m[|m| - |e|..] == e;
  }

  /** A failed validate run reports the standard error stream when it is not
      empty, and otherwise the error's message */
  lemma ValidateFailurePrefersStderr(r: ProcessResult)
    requires r.error.Some?
    ensures r.stderr != "" ==> EndsWith(Present(ValidateResult, r)[0].message, r.stderr)
    ensures r.stderr == "" ==> EndsWith(Present(ValidateResult, r)[0].message, r.error.value)
  {
    var m := Present(ValidateResult, r)[0].message;
    var e := if r.stderr != "" then r.stderr else r.error.value;
    assert m[|m| - |e|..] == e;
  }

  /** Only validate reads the standard error stream */
  lemma OnlyValidateReadsStderr(h: Handler, r1: ProcessResult, r2: ProcessResult)
    requires r1.error == r2.error && r1.stdout == r2.stdout
    ensures !h.ValidateResult? ==> Present(h, r1) == Present(h, r2)
    ensures r1.error.None? ==> Present(h, r1) == Present(h, r2)
  {
  }

  /** A validate run that succeeded shows information exactly when `Valid`
      occurs somewhere in its output (case-sensitively), and a warning
      otherwise; the banner carries the trimmed output after its marker */
  lemma ValidateSeverity(r: ProcessResult)
    requires r.error.None?
    ensures Present(ValidateResult, r)[0].ShowInformation?
        <==> exists i :: OccursAt(r.stdout, "Valid", i)
    ensures Present(ValidateResult, r)[0].ShowWarning?
        <==> !exists i :: OccursAt(r.stdout, "Valid", i)
    ensures Present(ValidateResult, r)[0].message
         == (if Present(ValidateResult, r)[0].ShowInformation? then ValidMarker else WarningMarker) + Trim(r.stdout)
  {
    IncludesIffOccurs(r.stdout, "Valid");
  }

  /** The test is a bare substring search: an output that says the file is
      not valid is still shown as information, and a lower-case `valid` is
      shown as a warning */
  lemma ValidateSubstringExamples()
    ensures Present(ValidateResult, ProcessResult(None, "Not Valid: 2 errors", ""))[0].ShowInformation?
    ensures Present(ValidateResult, ProcessResult(None, "all questions valid", ""))[0].ShowWarning?
  {
    NotValidMentionsValid();
    LowerCaseValidMissesValid();
  }

  lemma NotValidMentionsValid()
    ensures Includes("Not Valid: 2 errors", "Valid")
  {
    IncludesInfix("Not ", "Valid", ": 2 errors");
    assert "Not " + "Valid" + ": 2 errors" == "Not Valid: 2 errors";
  }

  lemma LowerCaseValidMissesValid()
    ensures !Includes("all questions valid", "Valid")
  {
    assert 'V' in "Valid" && 'V' !in "all questions valid";
    MissingCharExcludes("all questions valid", "Valid", 'V');
  }

  /** Fix-latex reverts the active editor exactly when fixes were applied and
      the run succeeded */
  lemma RevertIffAppliedSuccess(dryRun: bool, r: ProcessResult)
    ensures RevertActiveEditor in Present(FixLatexResult(dryRun), r) <==> r.error.None? && !dryRun
  {
  }

  /** A dry run shows the header followed by the tool's whole output */
  lemma DryRunShowsOutput(r: ProcessResult)
    requires r.error.None?
    ensures |Present(FixLatexResult(true), r)| == 1
    ensures Present(FixLatexResult(true), r)[0].ShowInformation?
    ensures StartsWith(Present(FixLatexResult(true), r)[0].message, FixPreviewHeader)
    ensures Present(FixLatexResult(true), r)[0].message[|FixPreviewHeader|..] == r.stdout
  {
  }

  /** Statistics open one plaintext document whose content is exactly the
      tool's output, and show no banner */
  lemma StatsOpensOutput(r: ProcessResult)
    requires r.error.None?
    ensures Present(StatsResult, r) == [OpenPlaintextDocument(r.stdout)]
  {
  }

  /** A successful preview opens `quiz_set_1.pdf` inside its output
      directory */
  lemma PreviewOpensFirstSet(outputDir: string, r: ProcessResult)
    requires r.error.None? && outputDir != []
    ensures Present(PreviewResult(outputDir), r)[0] == OpenFile(FirstSetPath(outputDir))
    ensures Dirname(Present(PreviewResult(outputDir), r)[0].path) == outputDir
    ensures Basename(Present(PreviewResult(outputDir), r)[0].path) == "quiz_set_1.pdf"
  {
    JoinIsChild(outputDir, "quiz_set_1.pdf");
  }
}

=== FILE: regrouping.dfy ===
/** Re-association steps for string concatenation. They model nothing in
    the extension: the command-line proofs call them so that each step the
    verifier takes on a long concatenation stays small. */
module Regrouping {
  lemma Regroup(a: string, b: string, c: string)
    ensures a + b + c == a + (b + c)
  {
  }

  /** Three words and the rest, regrouped as one literal prefix */
  lemma Regroup3(a: string, b: string, c: string, x: string)
    ensures a + " " + (b + " " + (c + " " + x)) == (a + (" " + (b + (" " + (c + " "))))) + x
  {
  }

  /** A flag between spaces, then its value and more text */
  lemma FlagStep(spaced: string, flag: string, value: string, rest: string)
    requires spaced == " " + flag + " "
    ensures " " + (flag + " " + value + " " + rest) == spaced + value + (" " + rest)
  {
  }

  lemma Reassociate(a: string, b: string, c: string, d: string, e: string, f: string, g: string)
    ensures a + b + (c + d + (e + f + g)) == a + b + c + d + e + f + g
  {
  }

  lemma PrefixSeven(p: string, a: string, b: string, c: string, d: string, e: string, f: string, g: string)
    ensures p + (a + b + c + d + e + f + g) == p + a + b + c + d + e + f + g
  {
  }

  /** A flag between spaces, then its value ending the text */
  lemma LastFlag(spaced: string, flag: string, value: string)
    requires spaced == " " + flag + " "
    ensures " " + (flag + " " + value) == spaced + value
  {
  }

  lemma Regroup4(a: string, b: string, c: string, d: string, e: string)
    ensures a + (b + c + (d + e)) == a + b + c + d + e
  {
  }
}

=== FILE: set_count.dfy ===
/** The custom set count of `generateQuizCommand` (src/extension.ts): the
    input box's `validateInput` check, which reads the text with `parseInt`,
    and the input box that keeps asking until a text passes it. */
module SetCount {
  import opened Options
  import opened JsText
  import opened JsNumber

  const SetCountPrompt := "Please enter a number between 1 and 10"

  /** `validateInput`: no message when `parseInt` reads an integer from 1 to
      10, else the fixed prompt */
  function SetCountError(value: string): (r: Option<string>)
    ensures r == None || r == Some(SetCountPrompt)
  {
    var num := ParseInt(value);
    if num.NaN? || num.value < 1 || num.value > 10 then Some(SetCountPrompt) else None
  }

  /** A set count written as a numeral is accepted exactly when it lies in 1..10 */
  lemma SetCountAcceptsOneToTen(n: int)
    ensures SetCountError(NumberToString(n)) == None <==> 1 <= n <= 10
  {
    ParseIntNumberToString(n);
  }

  /** A numeral not starting with 0 is judged by its value, whatever text
      follows it */
  lemma SetCountReadsNumeralPrefix(d: string, rest: string)
    requires d != [] && AllDigits(d, false) && d[0] != '0'
    requires rest == [] || !IsDecimalDigit(rest[0])
    ensures SetCountError(d + rest) == None <==> 1 <= DigitsValue(d, false) <= 10
  {
    ParseIntNumeralPrefix(d, rest);
  }

  /** A two-digit numeral starting with 1 is accepted exactly when it is 10 */
  lemma SetCountOfTeen(s: string)
    requires |s| == 2 && s[0] == '1' && IsDecimalDigit(s[1])
    ensures SetCountError(s) == None <==> s[1] == '0'
  {
    ParseIntTwoDigits(s);
  }

  /** The boundaries: 0 and 11 are refused, 1 and 10 accepted */
  lemma SetCountBoundaries()
    ensures SetCountError("0") == Some(SetCountPrompt)
    ensures SetCountError("1") == None
    ensures SetCountError("10") == None
    ensures SetCountError("11") == Some(SetCountPrompt)
  {
    SetCountAcceptsOneToTen(0);
    SetCountAcceptsOneToTen(1);
    SetCountOfTeen("10");
    SetCountOfTeen("11");
  }

  /** Any text whose first character is a digit from 1 to 9 and whose second,
      if any, is not a digit is accepted */
  lemma SetCountAcceptsLeadingDigit(s: string)
    requires |s| >= 1 && '1' <= s[0] <= '9' && (|s| == 1 || !IsDecimalDigit(s[1]))
    ensures SetCountError(s) == None
  {
    var d, rest := s[..1], s[1..];
    assert AllDigits(d, false);
    assert d + rest == s;
    ParseIntNumeralPrefix(d, rest);
    assert DigitsValue(d, false) == DigitValue(s[0]);
  }

  /** Leading whitespace never changes the verdict */
  lemma SetCountSkipsWhitespace(c: char, s: string)
    requires IsWhitespace(c)
    ensures SetCountError([c] + s) == SetCountError(s)
  {
    ParseIntSkipsWhitespace(c, s);
  }

  /** `parseInt` skips leading whitespace: ` 7` is accepted */
  lemma SetCountSkipsLeadingSpace()
    ensures SetCountError(" 7") == None
  {
    SetCountSkipsWhitespace(' ', "7");
    assert [' '] + "7" == " 7";
    SetCountAcceptsLeadingDigit("7");
  }

  /** `parseInt` ignores what follows the numeral: `7 sets` is accepted */
  lemma SetCountIgnoresTrailingText()
    ensures SetCountError("7 sets") == None
  {
    SetCountAcceptsLeadingDigit("7 sets");
  }

  /** `parseInt` reads a hexadecimal numeral after `0x`: `0xA` is ten and
      accepted */
  lemma SetCountReadsHexadecimal()
    ensures SetCountError("0xA") == None
  {
    var s := "0xA";
    assert s[0] == '0' && s[1] == 'x' && s[2] == 'A' && |s| == 3;
    ParseIntHexDigit(s);
    assert DigitValue('A') == 10;
  }

  /** The empty text is refused */
  lemma SetCountRefusesEmpty()
    ensures SetCountError("") == Some(SetCountPrompt)
  {
  }

  /** A number written in words is refused */
  lemma SetCountRefusesWords()
    ensures SetCountError("seven") == Some(SetCountPrompt)
  {
    ParseIntNoDigits("seven");
  }

  /** The position of the first text `validate` accepts, or the number of
      texts when it accepts none */
  function FirstAccepted(submitted: seq<string>, validate: string -> Option<string>): (k: nat)
    ensures k <= |submitted|
    ensures forall j :: 0 <= j < k ==> validate(submitted[j]).Some?
    ensures k < |submitted| ==> validate(submitted[k]) == None
  {
    if submitted == [] || validate(submitted[0]) == None then 0
    else 1 + FirstAccepted(submitted[1..], validate)
  }

  /** An input box with a `validateInput` callback: it closes on the first
      submitted text the callback accepts (a refused text leaves it open,
      showing the callback's message), and yields nothing when the user
      dismisses it before any text was accepted */
  function InputBox(submitted: seq<string>, validate: string -> Option<string>): (r: Option<string>)
    ensures r.Some? ==> exists k :: 0 <= k < |submitted| && submitted[k] == r.value
                                 && (forall j :: 0 <= j < k ==> validate(submitted[j]).Some?)
    ensures r.Some? ==> validate(r.value) == None
    ensures r.None? <==> forall k :: 0 <= k < |submitted| ==> validate(submitted[k]).Some?
  {
    var k := FirstAccepted(submitted, validate);
    if k < |submitted| then Some(submitted[k]) else None
  }

  /** The set-count box of the custom generate flow */
  function SubmitSetCount(submitted: seq<string>): (r: Option<string>)
    ensures r.Some? ==> exists k :: 0 <= k < |submitted| && submitted[k] == r.value
                                 && (forall j :: 0 <= j < k ==> SetCountError(submitted[j]).Some?)
    ensures r.Some? ==> SetCountError(r.value) == None
    ensures r.None? <==> forall k :: 0 <= k < |submitted| ==> SetCountError(submitted[k]).Some?
  {
    InputBox(submitted, SetCountError)
  }

  /** An accepted text is never empty */
  lemma SubmittedSetCountNonEmpty(submitted: seq<string>)
    requires SubmitSetCount(submitted).Some?
    ensures SubmitSetCount(submitted).value != ""
  {
    SetCountRefusesEmpty();
  }

  /** `3 --seed 7` passes `validateInput`, so the input box yields it */
  lemma SeedInjectionAccepted()
    ensures SubmitSetCount(["3 --seed 7"]) == Some("3 --seed 7")
  {
    SetCountAcceptsLeadingDigit("3 --seed 7");
  }
}

=== FILE: shell_words.dfy ===
/** How `/bin/sh` splits the command line the extension runs into the
    argument vector the tool receives, restricted to the words the model
    admits: bare words made of characters the shell gives no meaning to, and
    double-quoted text free of the characters that stay special inside double
    quotes. Words are separated by spaces, and the quotes group their text
    (spaces included) into one word and are themselves dropped. */
module ShellWords {
  import opened JsText

  /** Reads one word from the front of `s`, up to the first space that is not
      inside double quotes; returns the word and the unread rest */
  function Word(s: string, quoted: bool): (r: (string, string))
    ensures |r.1| <= |s|
    ensures s != [] && (quoted || s[0] != ' ') ==> |r.1| < |s|
    decreases |s|
  {
    if s == [] then ([], [])
    else if s[0] == '"' then Word(s[1..], !quoted)
    else if s[0] == ' ' && !quoted then ([], s)
    else
      var (w, rest) := Word(s[1..], quoted);
      ([s[0]] + w, rest)
  }

  /** The words of a command line, in order */
  function Words(s: string): seq<string>
    decreases |s|
  {
    if s == [] then []
    else if s[0] == ' ' then Words(s[1..])
    else
      var (w, rest) := Word(s, false);
      [w] + Words(rest)
  }

  /** A character the shell gives no meaning to in a bare word: not a blank,
      a quote, an operator (`; & | < > ( )`), a comment, a tilde or an
      expansion character */
  predicate IsPlainChar(c: char) {
    'a' <= c <= 'z' || 'A' <= c <= 'Z' || '0' <= c <= '9'
    || c == '-' || c == '_' || c == '.' || c == ',' || c == ':' || c == '/'
    || c == '+' || c == '=' || c == '@' || c == '%'
  }

  /** A word the shell reads back unchanged when written bare */
  predicate IsBareWord(w: string) {
    w != [] && forall k :: 0 <= k < |w| ==> IsPlainChar(w[k])
  }

  /** Text the shell reads back unchanged between double quotes: inside them
      only the quote itself, `$`, the backquote and the backslash are special */
  predicate IsQuotable(t: string) {
    '"' !in t && '$' !in t && '`' !in t && '\\' !in t
  }

  lemma BareHasNoSeparator(w: string)
    requires IsBareWord(w)
    ensures ' ' !in w && '"' !in w
  {
  }

  /** `p` written between double quotes */
  function Quote(p: string): string {
    "\"" + p + "\""
  }

  lemma {:induction false} BareRead(w: string, t: string)
    requires ' ' !in w && '"' !in w
    requires t == [] || t[0] == ' '
    ensures Word(w + t, false) == (w, t)
    decreases |w|
  {
    if w == [] {
      assert w + t == t;
    } else {
      assert (w + t)[1..] == w[1..] + t;
      BareRead(w[1..], t);
      assert [w[0]] + w[1..] == w;
    }
  }

  lemma {:induction false} QuotedRead(p: string, t: string)
    requires '"' !in p
    requires t == [] || t[0] == ' '
    ensures Word(p + "\"" + t, true) == (p, t)
    decreases |p|
  {
    if p == [] {
      assert p + "\"" + t == "\"" + t;
      assert ("\"" + t)[1..] == t;
    } else {
      assert (p + "\"" + t)[1..] == p[1..] + "\"" + t;
      QuotedRead(p[1..], t);
      assert [p[0]] + p[1..] == p;
    }
  }

  /** A bare word, then a space and more text */
  lemma WordsBareThen(w: string, rest: string)
    requires IsBareWord(w)
    ensures Words(w + " " + rest) == [w] + Words(rest)
  {
    BareHasNoSeparator(w);
    BareRead(w, " " + rest);
    assert w + " " + rest == w + (" " + rest);
    assert (" " + rest)[1..] == rest;
  }

  /** A bare word alone */
  lemma WordsBareLast(w: string)
    requires IsBareWord(w)
    ensures Words(w) == [w]
  {
    BareHasNoSeparator(w);
    BareRead(w, []);
    assert w + [] == w;
  }

  /** A quoted text, then a space and more text: the quotes group the text,
      spaces included, into one word */
  lemma WordsQuotedThen(p: string, rest: string)
    requires '"' !in p
    ensures Words(Quote(p) + " " + rest) == [p] + Words(rest)
  {
    var s := Quote(p) + " " + rest;
    assert s[0] == '"';
    assert s[1..] == p + "\"" + (" " + rest);
    QuotedRead(p, " " + rest);
    assert (" " + rest)[1..] == rest;
  }

  /** A quoted text alone */
  lemma WordsQuotedLast(p: string)
    requires '"' !in p
    ensures Words(Quote(p)) == [p]
  {
    var s := Quote(p);
    assert s[0] == '"';
    assert s[1..] == p + "\"" + [];
    QuotedRead(p, []);
  }

  // ---------------------------------------------------------------------
  // Command lines built from their arguments

  /** One argument as the extension writes it into a command line: spliced
      in verbatim, or between double quotes */
  datatype Arg = Verbatim(text: string) | Quoted(text: string)
  {
    function Render(): string {
      match this
      case Verbatim(t) => t
      case Quoted(t) => Quote(t)
    }

    /** The shell reads the argument back as exactly its text */
    predicate ReadsBack() {
      match this
      case Verbatim(t) => IsBareWord(t)
      case Quoted(t) => IsQuotable(t)
    }
  }

  /** The arguments rendered and joined by single spaces */
  function CommandLine(args: seq<Arg>): string {
    if args == [] then []
    else if |args| == 1 then args[0].Render()
    else args[0].Render() + " " + CommandLine(args[1..])
  }

  /** The texts of the arguments, in order */
  function Texts(args: seq<Arg>): (r: seq<string>)
    ensures |r| == |args| && forall k :: 0 <= k < |args| ==> r[k] == args[k].text
  {
    if args == [] then [] else [args[0].text] + Texts(args[1..])
  }

  predicate AllReadBack(args: seq<Arg>) {
    forall k :: 0 <= k < |args| ==> args[k].ReadsBack()
  }

  lemma TextsAppend(a: seq<Arg>, b: seq<Arg>)
    ensures Texts(a + b) == Texts(a) + Texts(b)
  {
  }

  lemma AllReadBackAppend(a: seq<Arg>, b: seq<Arg>)
    requires AllReadBack(a) && AllReadBack(b)
    ensures AllReadBack(a + b)
  {
  }

  /** When every argument reads back, the shell hands the tool exactly the
      arguments' texts, one word each */
  lemma {:induction false} CommandLineWords(args: seq<Arg>)
    requires AllReadBack(args)
    ensures Words(CommandLine(args)) == Texts(args)
  {
    if args == [] {
    } else if |args| == 1 {
      match args[0]
      case Verbatim(t) => WordsBareLast(t);
      case Quoted(t) => WordsQuotedLast(t);
    } else {
      CommandLineWords(args[1..]);
      var rest := CommandLine(args[1..]);
      match args[0]
      case Verbatim(t) => WordsBareThen(t, rest);
      case Quoted(t) => WordsQuotedThen(t, rest);
    }
  }

  /** Two argument lists in a row are their command lines joined by a space */
  lemma {:induction false} CommandLineAppend(a: seq<Arg>, b: seq<Arg>)
    requires a != [] && b != []
    ensures CommandLine(a + b) == CommandLine(a) + " " + CommandLine(b)
    decreases |a|
  {
    if |a| == 1 {
      assert (a + b)[1..] == b;
    } else {
      assert (a + b)[1..] == a[1..] + b;
      CommandLineAppend(a[1..], b);
    }
  }

  /** Replacing one argument by a list rendered as the same text leaves the
      command line unchanged */
  lemma CommandLineSplice(a: seq<Arg>, x: Arg, ys: seq<Arg>, c: seq<Arg>)
    requires a != [] && ys != [] && c != []
    requires CommandLine([x]) == CommandLine(ys)
    ensures CommandLine(a + [x] + c) == CommandLine(a + ys + c)
  {
    CommandLineAppend(a, [x]);
    CommandLineAppend(a + [x], c);
    CommandLineAppend(a, ys);
    CommandLineAppend(a + ys, c);
  }

  /** A quoted argument appears, quotes included, in the command line */
  lemma {:induction false} CommandLineQuotes(args: seq<Arg>, p: string)
    requires Quoted(p) in args
    ensures Includes(CommandLine(args), Quote(p))
  {
    if args[0] == Quoted(p) {
      assert args[0].Render() == Quote(p);
      if |args| == 1 {
        assert CommandLine(args) == [] + Quote(p) + [];
        IncludesInfix([], Quote(p), []);
      } else {
        var rest := " " + CommandLine(args[1..]);
        assert CommandLine(args) == [] + Quote(p) + rest;
        IncludesInfix([], Quote(p), rest);
      }
    } else {
      assert Quoted(p) in args[1..] && |args| >= 2;
      CommandLineQuotes(args[1..], p);
      var head := args[0].Render() + " ";
      assert CommandLine(args) == head + CommandLine(args[1..]) + [];
      IncludesWithin(head, CommandLine(args[1..]), [], Quote(p));
    }
  }

  /** A command line starts with its first argument and a space */
  lemma CommandLineStart(args: seq<Arg>)
    requires |args| >= 2
    ensures StartsWith(CommandLine(args), args[0].Render() + " ")
  {
    assert CommandLine(args) == (args[0].Render() + " ") + CommandLine(args[1..]);
  }
}

=== FILE: workflows.dfy ===
/** The extension's entry points (src/extension.ts): the five commands with
    their guard on the active editor, the two automatic triggers, and each
    workflow from the user's answers to the process it runs and what the
    editor shows afterwards. The editor, the settings, the user's answers to
    the prompts and the process result are all inputs. */
module Workflows {
  import opened Options
  import opened JsText
  import opened JsNumber
  import opened Paths
  import opened ShellWords
  import opened Eligibility
  import opened SetCount
  import opened Commands
  import opened Presentation

  /** The `setwise` settings the extension reads; `None` is a setting left
      unset */
  datatype Config = Config(autoValidate: bool, autoPreview: bool,
                           defaultTemplate: Option<string>, previewSets: Option<int>)

  /** The five workflows the commands and triggers start */
  datatype Workflow = Preview | Generate | Validate | FixLatex | Stats

  /** The user's answers to the prompts a workflow may show: the generate
      quick-pick, the texts submitted to the set-count box before it closed,
      the template quick-pick and the fix quick-pick (`None`: dismissed) */
  datatype Answers = Answers(generatePick: Option<GenerateOption>, setCountAttempts: seq<string>,
                             templatePick: Option<Template>, fixPick: Option<FixOption>)

  /** A process to run: its command line, its working directory (`None`:
      the extension host's own) and the callback that reads its result */
  datatype Job = Job(command: string, cwd: Option<string>, handler: Handler)

  /** The preview's settings, with their defaults */
  function PreviewTemplate(config: Config): string {
    config.defaultTemplate.GetOr("default")
  }

  function PreviewSets(config: Config): int {
    config.previewSets.GetOr(1)
  }

  /** The process a workflow runs on an eligible file, or none when the user
      dismissed one of its prompts */
  function Plan(w: Workflow, filePath: string, config: Config, answers: Answers): (job: Option<Job>)
    ensures job.Some? && w == Generate ==> job.value.cwd == Some(Dirname(filePath))
    ensures job.Some? && w != Generate ==> job.value.cwd == None
  {
    match w
    case Preview =>
      Some(Job(PreviewCommand(filePath, PreviewSets(config), PreviewTemplate(config)), None,
               PreviewResult(PreviewOutputDir(filePath))))
    case Generate =>
      var command := GenerateCommand(filePath, answers.generatePick,
                                     SubmitSetCount(answers.setCountAttempts), answers.templatePick);
      if command.None? then None else Some(Job(command.value, Some(Dirname(filePath)), GenerateResult))
    case Validate => Some(Job(ValidateCommand(filePath), None, ValidateResult))
    case FixLatex =>
      if answers.fixPick.None? then None
      else
        var dryRun := IsDryRun(answers.fixPick.value);
        Some(Job(FixLatexCommand(filePath, dryRun), None, FixLatexResult(dryRun)))
    case Stats => Some(Job(StatsCommand(filePath), None, StatsResult))
  }

  /** What the editor shows once the workflow's process has ended with
      `result`; no banner or document when no process ran */
  function Outcome(w: Workflow, filePath: string, config: Config, answers: Answers,
                   result: ProcessResult): (actions: seq<Action>)
    ensures actions == [] <==> Plan(w, filePath, config, answers).None?
    ensures (exists k :: 0 <= k < |actions| && actions[k].ShowError?)
        <==> Plan(w, filePath, config, answers).Some? && result.error.Some?
  {
    match Plan(w, filePath, config, answers)
    case None => []
    case Some(job) =>
      var actions := Present(job.handler, result);
      assert result.error.Some? ==> actions[0].ShowError?;
      actions
  }

  // ---------------------------------------------------------------------
  // Commands and their guard

  /** The guard's message; only the preview command names the pattern */
  function GuardMessage(w: Workflow): string {
    if w == Preview then "Please open a Setwise questions file (e.g., *questions.py)"
    else "Please open a Setwise questions file"
  }

  /** A command runs its workflow only on the file of an active editor that
      is a questions file */
  predicate GuardPasses(editor: Option<string>) {
    editor.Some? && IsQuestionsFile(editor.value)
  }

  /** The process a command runs */
  function CommandJob(w: Workflow, editor: Option<string>, config: Config, answers: Answers): (job: Option<Job>)
    ensures job.Some? ==> GuardPasses(editor)
  {
    if !GuardPasses(editor) then None else Plan(w, editor.value, config, answers)
  }

  /** What the editor shows when a command is invoked. An error banner
      appears exactly when the guard rejects the editor or the process ran
      and failed; a rejection shows that banner alone, and an accepted
      command shows no banner or document exactly when no process ran */
  function InvokeCommand(w: Workflow, editor: Option<string>, config: Config, answers: Answers,
                         result: ProcessResult): (actions: seq<Action>)
    ensures (exists k :: 0 <= k < |actions| && actions[k].ShowError?)
        <==> !GuardPasses(editor) || (Plan(w, editor.value, config, answers).Some? && result.error.Some?)
    ensures !GuardPasses(editor) ==> |actions| == 1 && actions[0].message == GuardMessage(w)
    ensures GuardPasses(editor) ==> (actions == [] <==> Plan(w, editor.value, config, answers).None?)
  {
    if !GuardPasses(editor) then
      var actions := [ShowError(GuardMessage(w))];
      assert actions[0].ShowError?;
      actions
    else Outcome(w, editor.value, config, answers, result)
  }

  /** Without an active editor, or on a file that is not a questions file,
      every command shows the guard's error and runs no process, whatever
      the process would have produced */
  lemma GuardRejectsBeforeAnyProcess(w: Workflow, editor: Option<string>, config: Config, answers: Answers,
                                     r1: ProcessResult, r2: ProcessResult)
    requires editor.None? || !IsQuestionsFile(editor.value)
    ensures CommandJob(w, editor, config, answers).None?
    ensures InvokeCommand(w, editor, config, answers, r1) == InvokeCommand(w, editor, config, answers, r2)
    ensures InvokeCommand(w, editor, config, answers, r1)[0].ShowError?
  {
  }

  /** Only the preview guard mentions `*questions.py` */
  lemma OnlyPreviewGuardNamesPattern(w: Workflow)
    ensures Includes(GuardMessage(w), "*questions.py") <==> w == Preview
  {
    if w == Preview {
      IncludesInfix("Please open a Setwise questions file (e.g., ", "*questions.py", ")");
      PreviewGuardLiteral();
    } else {
      PlainGuardHasNoStar();
      PatternHasStar();
      MissingCharExcludes("Please open a Setwise questions file", "*questions.py", '*');
    }
  }

  lemma PreviewGuardLiteral()
    ensures "Please open a Setwise questions file (e.g., " + "*questions.py" + ")"
         == "Please open a Setwise questions file (e.g., *questions.py)"
  {
  }

  lemma PlainGuardHasNoStar()
    ensures '*' !in "Please open a Setwise questions file"
  {
  }

  lemma PatternHasStar()
    ensures '*' in "*questions.py"
  {
  }

  // ---------------------------------------------------------------------
  // Automatic triggers

  /** Saving a document starts validation of it when `autoValidate` is set
      and it is a questions file */
  function OnDidSave(config: Config, fileName: string): (job: Option<Job>)
    ensures job.Some? <==> config.autoValidate && IsQuestionsFile(fileName)
    ensures job.Some? ==> job.value.handler == ValidateResult
  {
    if config.autoValidate && IsQuestionsFile(fileName) then
      Plan(Validate, fileName, config, Answers(None, [], None, None))
    else None
  }

  /** Changing the active editor starts a preview of its file when
      `autoPreview` is set, there is an editor and its file is a questions
      file */
  function OnDidChangeActiveEditor(config: Config, editor: Option<string>): (job: Option<Job>)
    ensures job.Some? <==> config.autoPreview && editor.Some? && IsQuestionsFile(editor.value)
    ensures job.Some? ==> job.value.handler.PreviewResult?
  {
    if config.autoPreview && editor.Some? && IsQuestionsFile(editor.value) then
      Plan(Preview, editor.value, config, Answers(None, [], None, None))
    else None
  }

  /** A triggered workflow runs the same process as its command would */
  lemma TriggersRunTheCommands(config: Config, fileName: string, editor: Option<string>, answers: Answers)
    ensures OnDidSave(config, fileName).Some?
        ==> OnDidSave(config, fileName) == CommandJob(Validate, Some(fileName), config, answers)
    ensures OnDidChangeActiveEditor(config, editor).Some?
        ==> OnDidChangeActiveEditor(config, editor) == CommandJob(Preview, editor, config, answers)
  {
  }

  // ---------------------------------------------------------------------
  // Properties of the workflows

  /** A command line whose first argument is `setwise` and which carries the
      file as a quoted argument */
  lemma ArgsNameFile(args: seq<Arg>, filePath: string)
    requires |args| >= 2 && args[0] == Verbatim("setwise") && Quoted(filePath) in args
    ensures StartsWith(CommandLine(args), "setwise ")
    ensures Includes(CommandLine(args), Quote(filePath))
  {
    CommandLineStart(args);
    assert "setwise" + " " == "setwise ";
    CommandLineQuotes(args, filePath);
  }

  /** A generate command line, whatever flags follow the head */
  lemma HeadNamesFile(filePath: string, flags: seq<Arg>)
    ensures StartsWith(CommandLine(GenerateHead(filePath) + flags), "setwise ")
    ensures Includes(CommandLine(GenerateHead(filePath) + flags), Quote(filePath))
  {
    var args := GenerateHead(filePath) + flags;
    assert args[0] == Verbatim("setwise") && args[3] == Quoted(filePath);
    ArgsNameFile(args, filePath);
  }

  /** A `setwise questions` command line, whatever flags follow the file */
  lemma QuestionsNamesFile(subcommand: string, filePath: string, flags: seq<Arg>)
    ensures StartsWith(CommandLine(QuestionsArgs(subcommand, filePath) + flags), "setwise ")
    ensures Includes(CommandLine(QuestionsArgs(subcommand, filePath) + flags), Quote(filePath))
  {
    var args := QuestionsArgs(subcommand, filePath) + flags;
    assert args[0] == Verbatim("setwise") && args[3] == Quoted(filePath);
    ArgsNameFile(args, filePath);
  }

  /** Every process the extension runs is a `setwise` command line that
      carries the file between double quotes */
  lemma EveryJobNamesTheFile(w: Workflow, filePath: string, config: Config, answers: Answers)
    requires Plan(w, filePath, config, answers).Some?
    ensures StartsWith(Plan(w, filePath, config, answers).value.command, "setwise ")
    ensures Includes(Plan(w, filePath, config, answers).value.command, Quote(filePath))
  {
    match w
    case Preview =>
      HeadNamesFile(filePath, PreviewFlags(filePath, PreviewSets(config), PreviewTemplate(config)));
    case Generate =>
      var pick := answers.generatePick.value;
      if pick == Custom {
        var sets := SubmitSetCount(answers.setCountAttempts).value;
        var template := answers.templatePick.value;
        CustomCommand(filePath, sets, template);
        HeadNamesFile(filePath, CustomFlags(sets, template.Name()));
      } else {
        HeadNamesFile(filePath, PresetFlags(pick.Sets()));
      }
    case Validate =>
      assert QuestionsArgs("validate", filePath) + [] == QuestionsArgs("validate", filePath);
      QuestionsNamesFile("validate", filePath, []);
    case FixLatex =>
      var dryRun := IsDryRun(answers.fixPick.value);
      QuestionsNamesFile("fix-latex", filePath, if dryRun then [Verbatim("--dry-run")] else []);
    case Stats =>
      assert QuestionsArgs("stats", filePath) + [] == QuestionsArgs("stats", filePath);
      QuestionsNamesFile("stats", filePath, []);
  }

  /** Dismissing a prompt runs no process and shows no banner or document:
      the generate quick-pick, the set-count box (no accepted text), the
      template pick, or the fix quick-pick. The prompts themselves are
      answers, not actions: a dismissed set-count box is still followed by
      the template pick, whose answer is then ignored */
  lemma CancellationRunsNothing(filePath: string, config: Config, answers: Answers, result: ProcessResult)
    ensures answers.generatePick.None? ==> Outcome(Generate, filePath, config, answers, result) == []
    ensures answers.generatePick == Some(Custom)
            && (forall k :: 0 <= k < |answers.setCountAttempts| ==> SetCountError(answers.setCountAttempts[k]).Some?)
        ==> Outcome(Generate, filePath, config, answers, result) == []
    ensures answers.generatePick == Some(Custom) && answers.templatePick.None?
        ==> Outcome(Generate, filePath, config, answers, result) == []
    ensures answers.fixPick.None? ==> Outcome(FixLatex, filePath, config, answers, result) == []
  {
  }

  /** A generate run with the custom entry starts exactly when a set count
      was accepted and a template picked */
  lemma CustomGenerateRunsIffAnswered(filePath: string, config: Config, answers: Answers)
    requires answers.generatePick == Some(Custom)
    ensures Plan(Generate, filePath, config, answers).Some?
        <==> answers.templatePick.Some?
             && exists k :: 0 <= k < |answers.setCountAttempts| && SetCountError(answers.setCountAttempts[k]) == None
  {
    // an accepted text is never empty: `parseInt` finds no digits in ""
    SetCountRefusesEmpty();
  }

  /** Preview, validate and statistics ask nothing: the answers do not matter */
  lemma NoPromptWorkflowsIgnoreAnswers(w: Workflow, filePath: string, config: Config, a1: Answers, a2: Answers)
    requires w == Preview || w == Validate || w == Stats
    ensures Plan(w, filePath, config, a1) == Plan(w, filePath, config, a2)
    ensures Plan(w, filePath, config, a1).Some?
  {
  }

  /** With the settings left unset, preview asks the tool for one set with
      the default template, written to the hidden directory, seed 42 */
  lemma PreviewDefaults(filePath: string, answers: Answers)
    requires IsQuotable(filePath)
    ensures Words(Plan(Preview, filePath, Config(false, false, None, None), answers).value.command)
         == ["setwise", "generate", "--questions-file", filePath]
            + ["--output-dir", PreviewOutputDir(filePath), "--sets", "1",
               "--template", "default", "--seed", "42"]
  {
    assert NumberToString(1) == "1";
    PreviewArgv(filePath, 1, "default");
  }

  /** Whatever the set count and template settings, a successful preview
      opens `quiz_set_1.pdf` in the hidden directory beside the file */
  lemma PreviewOpensFirstSetOnly(filePath: string, config: Config, answers: Answers, result: ProcessResult)
    requires result.error.None?
    ensures Outcome(Preview, filePath, config, answers, result)[0]
         == OpenFile(FirstSetPath(PreviewOutputDir(filePath)))
    ensures Dirname(FirstSetPath(PreviewOutputDir(filePath))) == PreviewOutputDir(filePath)
    ensures Basename(FirstSetPath(PreviewOutputDir(filePath))) == "quiz_set_1.pdf"
  {
    PreviewOutputIsHiddenSibling(filePath);
  }

  /** Fix-latex runs with `--dry-run` exactly when `Preview fixes` was
      picked, and reverts the editor exactly when fixes were applied and the
      run succeeded */
  lemma FixLatexDryRunAndRevert(filePath: string, config: Config, answers: Answers, result: ProcessResult)
    requires answers.fixPick.Some?
    ensures Plan(FixLatex, filePath, config, answers).value.command
         == FixLatexCommand(filePath, answers.fixPick.value.Label() == "Preview fixes")
    ensures RevertActiveEditor in Outcome(FixLatex, filePath, config, answers, result)
        <==> answers.fixPick == Some(ApplyFixes) && result.error.None?
  {
    RevertIffAppliedSuccess(IsDryRun(answers.fixPick.value), result);
  }
}
